=== FILE: README.md ===
# Parts and Bids — a Dafny model of the marketplace's request and widget logic

Parts and Bids is a marketplace where sellers list auto parts with photos and buyers bid on them. This project models the pure decision logic of that application in Dafny and proves properties of it:

- the server's route handlers: creating and searching listings, changing account settings, deleting an account, and listing a user's own bids and listings;
- the client widgets: the image-upload preview list, the photo gallery, the crop dialog and the resize-before-upload arithmetic;
- the browse and listings pages: turning filter forms into search queries and picking the picture a listing card shows.

Every module is a set of pure functions over immutable datatypes. Each function stands for one handler or event. Collaborators the code only calls are parameters:

- the database tables are sequences of rows passed in, and a handler returns the rows afterwards;
- the session is an `Option<SessionUser>`;
- bcrypt's `compare` and `hash`, and `parseFloat`/`parseInt`, are function-typed parameters.

JavaScript truthiness is written out: a missing or empty string is falsy, and so are the numbers 0 and NaN.

Files and modules:

| file | module | models |
|---|---|---|
| common.dfy | `Common` | options, truthiness, responses, rows, the storage URL scheme |
| ordering.dfy | `Ordering` | `findMany` with a filter and `orderBy: { createdAt: "desc" }` |
| entries.dfy | `Entries` | `URLSearchParams` and plain objects as ordered name/value lists |
| listings_route.dfy | `ListingsRoute` | `POST` / `GET /api/listings` |
| settings_route.dfy | `SettingsRoute` | `PUT /api/user/settings` |
| delete_route.dfy | `DeleteRoute` | `POST /api/user/delete` |
| user_bids_route.dfy | `UserBidsRoute` | `GET /api/user/bids` |
| user_listings_route.dfy | `UserListingsRoute` | `GET /api/user/listings` |
| image_upload.dfy | `ImageUpload` | the preview list, drop admission, upload retries |
| gallery_view.dfy | `GalleryView` | index navigation, swipes, keys, dots and thumbnails |
| image_cropper.dfy | `ImageCropper` | the initial crop, the aspect toggle, the completion guard |
| image_optimization.dfy | `ImageOptimization` | `createCanvas` and the resize fit of `optimizeImage` |
| browse_page.dfy | `BrowsePage` | card picture choice, the filter state and its query |
| listings_content.dfy | `ListingsContent` | filters from the address bar, the query, the submit target |

The listing-creation handler attaches exactly one image, built from the form's `imageKey`, and the model follows it. Bid placement is left out; see below.

## Model

| member | source | states |
|---|---|---|
| Common.S3Url | src/app/api/listings/route.ts:50 | an image URL is the bucket/region prefix followed by the key, and the key can be read back from the URL |
| Common.FindFirst | src/app/api/user/settings/route.ts:34-36 | a lookup by a unique column (the id here, the email in the delete handler) finds a row that matches, or reports that no row does |
| Common.ToImageRefs | src/app/api/user/bids/route.ts:37-40 | one `{url, key}` per stored image, in order; each key is kept and each URL decodes back to it |
| Ordering.SortNewestFirst | src/app/api/listings/route.ts:122-124 | `orderBy createdAt desc` returns a permutation of its input that is ordered newest first |
| Ordering.FindMany | src/app/api/user/listings/route.ts:16-31 | the result holds exactly the rows the filter accepts, as many times as the input does, newest first |
| ListingsRoute.CreateListing | src/app/api/listings/route.ts:17-79 | no session gives 401 whatever the form holds. With a session, 400 "Missing required fields" comes exactly when title, description, price, category or imageKey is falsy, and a price of 0 or NaN counts as falsy. A created listing is active and owned by the session user. It carries the form's fields: falsy make/model become null, and year is null when the field is falsy. year is `parseInt` of the field when it is truthy. It has exactly one image, whose URL decodes to imageKey |
| ListingsRoute.UncheckedFieldsIrrelevant | src/app/api/listings/route.ts:42-48 | condition, location, endDate, make, model and year never decide between 400 and 201 |
| ListingsRoute.ZeroPriceRejected | src/app/api/listings/route.ts:31-48 | a price that parses to 0 is refused as a missing field |
| ListingsRoute.BuildWhere | src/app/api/listings/route.ts:99-111 | the `where` object always asks for active listings. Each text filter is present exactly when its parameter is non-empty, and then carries that value. Each price bound is present when its parameter is non-empty, and carries the parsed value |
| ListingsRoute.Bound | src/app/api/listings/route.ts:109-110 | a price bound exists exactly when its parameter is present and non-empty |
| ListingsRoute.BuildWhereSelects | src/app/api/listings/route.ts:99-111 | the `where` object accepts a listing exactly when it is active, equals every non-empty text filter, and lies within every non-empty price bound inclusively |
| ListingsRoute.PriceBoundsIndependent | src/app/api/listings/route.ts:107-111 | with neither price parameter there is no price constraint; each bound is present exactly when its own parameter is |
| ListingsRoute.SearchListings | src/app/api/listings/route.ts:89-127 | the search returns exactly the stored listings the parameters select, each as many times as it is stored, all active, newest first |
| SettingsRoute.UpdateSettings | src/app/api/user/settings/route.ts:9-82 | 401 "Unauthorized" exactly without a session. A changed email that another account already uses gives "Email is already taken" before the user lookup, and an unchanged email never does. 404 "User not found" comes exactly when the email check passed and the user is missing. Without a new password the password checks never run. With one, the refusals are 400 in this order: no current password ("Current password is required"), no stored hash ("Cannot change password for OAuth accounts"), then a current password that does not match ("Current password is incorrect"). A refusal changes no row. Success rewrites only the session user's row and answers with just id, name and email |
| SettingsRoute.SucceedsIffNoCheckFails | src/app/api/user/settings/route.ts:13-75 | the update succeeds exactly when no check in the chain fails: session, email, user, then the three password checks |
| SettingsRoute.PasswordChangesOnlyWhenRequested | src/app/api/user/settings/route.ts:68-75 | after success, name and email are the requested ones. The password is hash(newPassword) when one was given and is untouched otherwise |
| DeleteRoute.Transaction | src/app/api/user/delete/route.ts:60-85 | a committed transaction leaves none of the user's bids, listings, sessions, accounts or user row, and keeps every other record. It aborts exactly when a statement fails |
| DeleteRoute.DeleteAccount | src/app/api/user/delete/route.ts:9-97 | 401 without a session email and 400 without a password, both before the store is read. 404 comes exactly for an unknown user. A wrong password for an account with a stored hash gives 400. Once every check has passed, a failed transaction gives 500, and 500 comes from nothing else. Every refusal leaves the store as it was; success purges the user and nothing else |
| DeleteRoute.DeleteSucceedsIffNoCheckFails | src/app/api/user/delete/route.ts:11-90 | the account is deleted exactly when there is a session email and a password, the user exists, the password matches any stored hash, and the transaction commits |
| DeleteRoute.OAuthAccountNeedsNoPasswordMatch | src/app/api/user/delete/route.ts:48-57 | an account without a stored password is deleted with any non-empty password |
| UserBidsRoute.ToView | src/app/api/user/bids/route.ts:33-41 | the transform keeps the bid and the listing's other fields, and maps each image in order to its key and its public URL |
| UserBidsRoute.UserBids | src/app/api/user/bids/route.ts:8-44 | 401 exactly without a session. Otherwise there is one transformed entry per bid of the session user, none for anyone else, newest first |
| UserListingsRoute.ToView | src/app/api/user/listings/route.ts:34-40 | the transform keeps every listing field and the bid count, and maps each image in order to its key and its public URL |
| UserListingsRoute.UserListings | src/app/api/user/listings/route.ts:8-42 | 401 exactly without a session. Otherwise there is one transformed entry per listing the session user sells, none for anyone else, newest first |
| ImageUpload.AddUploaded | src/components/ImageUpload.tsx:66-71 | an upload appends one preview and leaves the others alone. The new preview is the default exactly when the list was empty, and "at most one default" is kept |
| ImageUpload.SetDefault | src/components/ImageUpload.tsx:90-98 | every preview keeps its url and key, and the flag is set exactly at the chosen index |
| ImageUpload.SetDefaultCount | src/components/ImageUpload.tsx:90-94 | after choosing a default, exactly one preview is flagged when the index is in range, and none when it is not |
| ImageUpload.Remove | src/components/ImageUpload.tsx:138-157 | removal drops exactly the preview at the index and keeps the rest in order. An out-of-range index, or a delete request that throws, changes nothing. "At most one default" is kept |
| ImageUpload.RemovingDefaultLeavesNone | src/components/ImageUpload.tsx:150 | removing the default preview leaves no default; the flag is not reassigned |
| ImageUpload.UploadsMarkFirstOnly | src/components/ImageUpload.tsx:67-69 | uploads alone flag the first image and only it |
| ImageUpload.OnDrop | src/components/ImageUpload.tsx:100-118 | an empty drop does nothing. Too many files (a strict `>`), or a first file over 20 MiB, gives an error toast and changes nothing. Otherwise the first file is queued for cropping, the error is cleared and the retry count reset; admission guarantees room for one more image |
| ImageUpload.DropThenUploadWithinLimit | src/components/ImageUpload.tsx:101-106 | an admitted drop followed by its upload never takes the list past `maxFiles` |
| ImageUpload.DefaultLimitIsFive | src/components/ImageUpload.tsx:101-106 | with the default `maxFiles` of 5 (line 17), a list of five refuses every drop, and a single small file is still admitted to a list of four |
| ImageUpload.UploadAttempts | src/components/ImageUpload.tsx:39-66 | corrected loop: the upload succeeds only with an OK response within three attempts. It carries the body of the first OK response, and failure means none of the three attempts was OK |
| ImageUpload.ErrorResponseTakenAsUpload | src/components/ImageUpload.tsx:42-66 | as written, an error response on the first attempt is taken as a successful upload |
| ImageUpload.HandlerRuns | src/components/ImageUpload.tsx:79-84 | corrected retry: the handler runs at most MAX_RETRIES + 1 times and at least once when there is an attempt. Every run before the last failed, and the runs stop early only at a success or when the count reaches MAX_RETRIES: a failure under the limit is retried, and a success ends the retries |
| ImageUpload.RetriesNeverStop | src/components/ImageUpload.tsx:79-84 | as written, n consecutive failures make the handler run n times, for every n |
| GalleryView.Next | src/components/GalleryView.tsx:53-56 | "next" keeps a non-negative index in range, steps by one, and wraps from the last image to the first |
| GalleryView.Prev | src/components/GalleryView.tsx:58-61 | "previous" keeps an in-range index in range, steps back by one, and wraps from the first image to the last |
| GalleryView.NextPrevInverse | src/components/GalleryView.tsx:53-61 | "previous" after "next", and "next" after "previous", return to the starting index |
| GalleryView.NextTimesAdvances | src/components/GalleryView.tsx:54 | k presses of "next", for k up to the image count, advance the index by k with one wrap |
| GalleryView.FullCycle | src/components/GalleryView.tsx:54 | pressing "next" once per image returns to the start |
| GalleryView.SingleImage | src/components/GalleryView.tsx:54-59 | with one image both arrows stay on it |
| GalleryView.NextImage | src/components/GalleryView.tsx:53-56 | "next" keeps the index in range, steps by one and wraps to the first image. It raises the loading flag and touches nothing else |
| GalleryView.PrevImage | src/components/GalleryView.tsx:58-61 | "previous" keeps the index in range, steps back by one and wraps to the last image. It raises the loading flag and touches nothing else |
| GalleryView.TouchEnd | src/components/GalleryView.tsx:44-51 | lifting the finger compares the last recorded start and end coordinates. A distance of more than 75 px to the left advances and one to the right goes back; anything within 75 px leaves the gallery unchanged |
| GalleryView.SwipeDecidedByDistance | src/components/GalleryView.tsx:36-51 | a gesture that moves changes the image exactly when its last point is more than 75 px from where it started, in that direction |
| GalleryView.TapUsesStaleEnd | src/components/GalleryView.tsx:36-51 | a tap without a move is measured against the previous gesture's end point, or 0 at first (lines 13-14), because the touch-start handler does not reset it. On a fresh two-image gallery a tap at x = 100 turns the image |
| GalleryView.OpenModal | src/components/GalleryView.tsx:96 | a click on the main image opens the modal and leaves the index and loading flag alone |
| GalleryView.CloseModal | src/components/GalleryView.tsx:224-230 | a click on the backdrop or the close button closes the modal and leaves the index and loading flag alone |
| GalleryView.KeysNeedOpenModal | src/components/GalleryView.tsx:63-69 | with the modal closed ArrowRight does nothing; after the click that opens it ArrowRight advances, and Escape has the close button's effect |
| GalleryView.KeyDown | src/components/GalleryView.tsx:63-69 | keys act only while the modal is open: ArrowRight goes next, ArrowLeft previous, and Escape closes. Other keys change nothing |
| GalleryView.Select | src/components/GalleryView.tsx:172-175 | a dot or thumbnail click moves to its index and raises the loading flag |
| GalleryView.EventsKeepIndexInRange | src/components/GalleryView.tsx:36-69 | every event keeps the index in range, and a swipe or key that moves it raises the loading flag |
| ImageCropper.Toggle | src/components/ImageCropper.tsx:57-67 | the toggle flips between free and 16:9. The crop resets to 100% width at the corner, with the locked ratio, or full height when free |
| ImageCropper.ToggleTwiceRestores | src/components/ImageCropper.tsx:19-27 | toggling twice from the initial dialog restores its aspect and crop |
| ImageCropper.FirstToggleLocks | src/components/ImageCropper.tsx:57-67 | the first toggle locks 16:9 with a 100 x 56.25 percent crop |
| ImageCropper.ControlsKeepCropUsable | src/components/ImageCropper.tsx:19-67 | with the image mounted, completion accepts the initial crop and every crop the aspect toggle resets to, unchanged; the dialog's own controls never produce a crop the completion guard refuses |
| ImageCropper.Cut | src/components/ImageCropper.tsx:36-55 | corrected cut: the copied region is the crop converted to image pixels; for a pixel crop it equals the written cut |
| ImageCropper.InitialCropCutsCorner | src/components/ImageCropper.tsx:19-25 | as written, confirming the initial crop copies a 100 x 100 pixel corner |
| ImageCropper.InitialCropKeepsWholeImage | src/components/ImageCropper.tsx:19-25 | corrected, the initial crop copies the whole image |
| ImageOptimization.CreateCanvas | src/utils/imageOptimization.ts:1-30 | the canvas has the crop's width and height. For a crop of positive size, the `drawImage` mapping (SourcePoint) paints at every canvas point (u, v) the image point (crop.x + u, crop.y + v): the region is copied at scale 1 |
| ImageOptimization.Shrink | src/utils/imageOptimization.ts:53-61 | one resize step caps a side at its bound and scales the other side in proportion, never growing either |
| ImageOptimization.FitWithin | src/utils/imageOptimization.ts:50-61 | the result lies within the bounds, is never larger than the input, and equals an input that already fits. A shrunk image touches the box, and the aspect ratio is kept |
| ImageOptimization.DefaultBounds | src/utils/imageOptimization.ts:34-35 | with the default bounds the result is at most 800 x 800 |
| BrowsePage.FirstDefault | src/app/browse/page.tsx:51 | `find` returns the first flagged image, or reports that none is flagged |
| BrowsePage.CardImageUrl | src/app/browse/page.tsx:44-61 | no images gives the placeholder. Otherwise the card uses the first default image, or the first image when there is no default, and the placeholder if that URL is empty. The picture is always the placeholder or a non-empty URL of the listing |
| BrowsePage.DefaultImageWins | src/app/browse/page.tsx:51-60 | the first default image with a URL is the card's picture |
| BrowsePage.InitialFiltersShape | src/app/browse/page.tsx:141-148 | the filter state starts with the six filter names, once each, in the order the server reads them |
| Entries.UpdateField | src/app/browse/page.tsx:181-184 | a filter change sets the named filter, leaves every other filter and the order of existing names as they were, and keeps names unique; ListingsContent.tsx:63-66 is the same handler |
| BrowsePage.FetchUrl | src/app/browse/page.tsx:154-161 | the browse page requests "/api/listings?" followed by the non-empty filters |
| BrowsePage.SameRequestAsListingsPage | src/app/browse/page.tsx:154-161 | the browse page's `append` query and the listings page's `set` query give the same request for the same filters |
| BrowsePage.FetchParams | src/app/browse/page.tsx:154-161 | the query holds exactly the non-empty filters, each name once, in the form's order |
| ListingsContent.InitialFilters | src/components/listings/ListingsContent.tsx:31-38 | each filter starts as its search parameter's value, or "" when absent. The six names appear once each, in order |
| ListingsContent.InitialFilterReadsParam | src/components/listings/ListingsContent.tsx:31-38 | reading a filter back by name gives the search parameter's value, or "" |
| ListingsContent.QueryParams | src/components/listings/ListingsContent.tsx:43-46 | the query built with `set` holds exactly the non-empty filters, each name once, in the form's order |
| ListingsContent.FetchUrl | src/components/listings/ListingsContent.tsx:43-48 | the listings page requests "/api/listings?" followed by the non-empty filters |
| ListingsContent.SubmitTarget | src/components/listings/ListingsContent.tsx:68-75 | submitting navigates to "/listings?" followed by the query the fetch sends |
| Entries.SetIsAssignOnUnique | src/components/listings/ListingsContent.tsx:45 | on a list with unique names, `params.set` and object assignment agree |
| Entries.AppendTruthyIsNonEmpty | src/app/browse/page.tsx:156-159 | the append loop adds exactly the truthy entries, in order |
| Entries.SetTruthyIsNonEmpty | src/components/listings/ListingsContent.tsx:43-46 | with unique names, the set loop adds exactly the truthy entries, in order |
| Entries.AssignOthersUnchanged | src/app/browse/page.tsx:183 | `{ ...prev, [name]: value }` leaves every other property unchanged |

## Left out

- Bid placement: `POST /api/listings/[id]` (src/app/api/listings/[id]/route.ts:49-144) places a bid with its own checks. It is left out by choice: this model covers listing creation and search, account management, and the upload and browsing widgets. The single-listing `GET` in the same file is left out too.
- The upload endpoint (src/app/api/upload/route.ts) is not part of this model, and the widget and the endpoint disagree. The endpoint answers 400 unless the form carries `key` and `listingId`, but the widget sends only `file`. A successful upload answers `{ success, image }`, not the `{ url, key }` the widget reads. With both as written, every upload from the widget is refused. The written loop then takes the 400 body as an upload with no URL or key (the first finding below). Under the corrected loop every upload fails and reaches the unbounded retry (the second finding). The retry loop is stated here for every sequence of responses.
- Persistence, sessions and hashing are parameters. The database is a set of row sequences, the session an optional user, and bcrypt two functions. The schema's referential actions, such as cascading deletes, are not part of this model. Only the five explicit statements delete anything.
- Errors thrown by the database outside the delete transaction, the 500 answers they cause in the other handlers, and Prisma's own validation errors are not modelled.
- SettingsRoute.UpdateSettings: a JSON field the client leaves out is modelled as "", and both of the following paths are outside the model. In the handler, a missing email differs from the session's email, so the uniqueness lookup runs with `where: { email: undefined }`. That lookup names no unique field, the database client rejects it, and the catch block answers 500 "Failed to update settings" (src/app/api/user/settings/route.ts:20-23, 82-87). The model instead reads the email as "" and can succeed with it. A missing name reaches the update as `undefined` and leaves the stored name unchanged, where the model stores "".
- ListingsRoute.SearchListings: `parseFloat` on a price parameter is a function to reals, so a NaN bound is not modelled. The `seller: { name }` join in the result is left out.
- ListingsRoute.CreateListing: `new Date(endDate)` is not evaluated; the raw field is kept. The S3 upload route is not part of this model.
- GalleryView.TouchEnd: the touch coordinates are real numbers and the first touch point stands for the whole gesture; multi-touch is not modelled.
- GalleryView.Next: with no images the gallery renders no controls and its modal cannot open, so next and previous are modelled only for at least one image. JavaScript's NaN index for an empty gallery is not represented.
- The gallery's image loading, error display and retry button, and the `useEffect` that clears the loading flag, are left out. These are browser events.
- ImageUpload: the toasts' wording is reduced to a datatype. `onUploadComplete` callbacks, the optimisation call and the crop hand-off are left out.
- ImageUpload.OnDrop: the dropzone's own filtering (src/components/ImageUpload.tsx:129-136) is left out; it happens in the dropzone library, before `onDrop` is called, and that library is not part of this model. With `maxSize: MAX_FILE_SIZE` and `multiple: false` the library hands an oversized file, or a drop of several files, to `onDrop` as rejected, so `onDrop` sees an empty accepted list and returns. The "Image size must be less than 20MB" toast (lines 109-112) therefore cannot fire from the page, an oversized drop is silently ignored, and the count test sees at most one file. The model states `OnDrop` for every list it is given, so it keeps both checks.
- ImageUpload.AddUploaded: every write to the preview list (src/components/ImageUpload.tsx:67-70, 91-95, 150-151) passes a list computed from the `previews` the handler captured when it was created, not the list current when the write happens. Nothing disables the preview grid while an upload is in flight, including the 2 s and 4 s waits between attempts (line 58). So a removal or a default change made during an upload is undone when the upload completes. Of two overlapping uploads only the later one's preview survives, and the earlier one's stored object is left without a preview. The model applies every event to the current list, and its `AddUploaded`, `Remove` and `SetDefault` properties hold only for events that do not overlap.
- ImageCropper.CropToProduce: the guard tests the image element's ref, which is set when the element mounts. Whether the picture inside it has finished loading is not modelled, and neither is the ref being cleared on unmount.
- ImageCropper: the live crop changes from the crop widget and the canvas-to-file encoding are left out. A pixel crop from the widget is in displayed-image pixels, while the canvas copies natural-image pixels. That scaling is not modelled.
- ImageOptimization: dimensions are reals. The integer truncation when a canvas size is assigned, the drawing, the JPEG quality and the `toBlob` callback are left out.
- Query strings are joined without percent-encoding.
- JSX rendering, navigation, layout, the sell form, the dashboard and date formatting are out of scope.

## Findings

| source | as written | input that shows it | evidently intended | confidence | as-written member | corrected member |
|---|---|---|---|---|---|---|
| src/components/ImageUpload.tsx:42-66 | `response` is assigned before `response.ok` is tested. A non-OK response on attempt 1 or 2 therefore ends the loop, and its error body is read as `{url, key}` | the upload endpoint answers with an error status on the first attempt; it answers 400 to every request this widget sends (see "## Left out") | retry non-OK responses like network errors, and fail after three attempts | not executed; high | ImageUpload.UploadAttemptsAsWritten (shown by ImageUpload.ErrorResponseTakenAsUpload) | ImageUpload.UploadAttempts |
| src/components/ImageUpload.tsx:79-84 | the outer retry tests the `retryCount` captured when the handler was created, which an admitted drop has just set to 0. The recursive call reuses that same handler, so the test always passes | the upload loop fails every time, for example because the network is down | stop after MAX_RETRIES outer retries | not executed; high | ImageUpload.HandlerRunsAsWritten (shown by ImageUpload.RetriesNeverStop) | ImageUpload.HandlerRuns |
| src/components/ImageCropper.tsx:19-25, 36-41 | the crop starts in percent units, but `createCanvas` reads the crop's numbers as pixels whatever their unit | confirm the initial crop of a 1600 x 900 image without dragging | convert a percent crop to image pixels before cutting | not executed; medium | ImageCropper.CutAsWritten (shown by ImageCropper.InitialCropCutsCorner) | ImageCropper.Cut (with ImageCropper.InitialCropKeepsWholeImage) |

=== FILE: browse_page.dfy ===
/** The public browse page: the picture each listing card shows, and the
    filter form whose state becomes the search query. */
module BrowsePage {
  import opened Common
  import Entries
  import ListingsRoute
  import ListingsContent

  const Placeholder: string := "/placeholder.svg"

  /** `images.find(img => img.isDefault)`: the index of the first default image. */
  function FirstDefault(images: seq<DbImage>): (r: Option<nat>)
    ensures r.Some? ==> (r.value < |images| && images[r.value].isDefault
                         && forall j :: 0 <= j < r.value ==> !images[j].isDefault)
    ensures r.None? ==> forall j :: 0 <= j < |images| ==> !images[j].isDefault
  {
    if |images| == 0 then None
    else if images[0].isDefault then Some(0)
    else match FirstDefault(images[1..])
      case None => None
      case Some(k) => Some(k + 1)
  }

  /** The card's picture. `None` is a listing without an `images` array. */
  function CardImageUrl(images: Option<seq<DbImage>>): (url: string)
    // no images: the placeholder
    ensures images.None? || |images.value| == 0 ==> url == Placeholder
    // otherwise the first default image, or the first image when none is the default
    ensures images.Some? && |images.value| > 0 ==>
      var imgs := images.value;
      var chosen := if exists d :: 0 <= d < |imgs| && imgs[d].isDefault
                    then imgs[FirstDefault(imgs).value] else imgs[0];
      url == (if chosen.url == "" then Placeholder else chosen.url)
    // so the picture is always the placeholder or a non-empty URL of the listing
    ensures url == Placeholder || (images.Some? && url != "" && exists i :: 0 <= i < |images.value| && images.value[i].url == url)
  {
    if images.None? || |images.value| == 0 then Placeholder
    else
      var imgs := images.value;
      var selected := match FirstDefault(imgs)
        case Some(d) => imgs[d]
        case None => imgs[0];
      if selected.url == "" then Placeholder else selected.url
  }

  /** A default image with a URL wins over every other image. */
  lemma DefaultImageWins(images: seq<DbImage>, d: nat)
    requires d < |images| && images[d].isDefault && images[d].url != ""
    requires forall j :: 0 <= j < d ==> !images[j].isDefault
    ensures CardImageUrl(Some(images)) == images[d].url
  {
    assert FirstDefault(images) == Some(d);
  }

  // ---------------------------------------------------------------------------
  // Filters

  /** The filter state as first rendered: the six filters, all empty, in
      declaration order. */
  const InitialFilters: seq<Entries.Entry> :=
    [("category", ""), ("make", ""), ("model", ""), ("minPrice", ""), ("maxPrice", ""), ("condition", "")]

  lemma InitialFiltersShape()
    ensures Entries.Keys(InitialFilters) == ListingsRoute.FilterKeys
    ensures Entries.UniqueKeys(InitialFilters)
  {
  }

  /** The `URLSearchParams` that `fetchListings` builds with `append`. */
  function FetchParams(filters: seq<Entries.Entry>): (ps: seq<Entries.Entry>)
    requires Entries.UniqueKeys(filters)
    // exactly the non-empty filters, in the form's order, each name once
    ensures ps == Entries.NonEmpty(filters)
    ensures forall e :: e in ps <==> e in filters && e.1 != ""
    ensures Entries.UniqueKeys(ps)
  {
    Entries.AppendTruthyIsNonEmpty([], filters);
    Entries.NonEmptyKeepsUnique(filters);
    Entries.NonEmptyMembers(filters);
    Entries.AppendTruthy([], filters)
  }

  /** The request `fetchListings` sends. */
  function FetchUrl(filters: seq<Entries.Entry>): (url: string)
    requires Entries.UniqueKeys(filters)
    ensures url == "/api/listings?" + Entries.ToQueryString(Entries.NonEmpty(filters))
  {
    "/api/listings?" + Entries.ToQueryString(FetchParams(filters))
  }

  /** The browse page builds its query with `append`, the listings page with
      `set`; on the same filter state they send the same request. */
  lemma SameRequestAsListingsPage(filters: seq<Entries.Entry>)
    requires Entries.UniqueKeys(filters)
    ensures FetchUrl(filters) == ListingsContent.FetchUrl(filters)
  {
  }
}

=== FILE: common.dfy ===
/** Values shared by the route handlers and the pages: optional values, the
    truthiness tests the TypeScript code applies to strings and numbers, the
    database rows the handlers read, and the object-storage URL scheme. */
module Common {

  datatype Option<+T> = None | Some(value: T)

  /** A JavaScript number as produced by `parseFloat`/`parseInt`: either NaN or
      a finite value (infinities are not modelled). */
  datatype Number = NaN | Num(value: real)

  /** `if (s)` on a value typed `string | null`: null and "" are falsy. */
  predicate Truthy(s: Option<string>)
  {
    s.Some? && s.value != ""
  }

  /** `if (n)` on a number: NaN and 0 are falsy. */
  predicate NumTruthy(n: Number)
  {
    n.Num? && n.value != 0.0
  }

  /** `s || null`: a falsy string collapses to null. */
  function OrNull(s: Option<string>): (r: Option<string>)
    ensures r.Some? <==> Truthy(s)
    ensures r.Some? ==> r == s
  {
    if Truthy(s) then s else None
  }

  /** `s || ""`: a missing value reads as the empty string. */
  function OrEmpty(s: Option<string>): (r: string)
    ensures s.Some? ==> r == s.value
    ensures s.None? ==> r == ""
  {
    match s
    case Some(v) => v
    case None => ""
  }

  /** `findUnique` on a unique column: the first row satisfying `p`, if any. */
  function FindFirst<T(!new)>(xs: seq<T>, p: T -> bool): (r: Option<T>)
    ensures r.Some? ==> r.value in xs && p(r.value)
    ensures r.None? <==> forall x :: x in xs ==> !p(x)
  {
    if |xs| == 0 then None
    else if p(xs[0]) then Some(xs[0])
    else
      assert forall x :: x in xs ==> x == xs[0] || x in xs[1..];
      FindFirst(xs[1..], p)
  }

  /** The result of a route handler: a JSON body with its HTTP status, or an
      error message with its HTTP status. */
  datatype Response<T> = Ok(status: int, body: T) | Error(status: int, message: string)

  // ---------------------------------------------------------------------------
  // Object-storage URLs

  /** The part of every public object URL that precedes the object key. */
  function S3Prefix(bucket: string, region: string): string
  {
    "https://" + bucket + ".s3." + region + ".amazonaws.com/"
  }

  /** Public URL of the object stored under `key`. */
  function S3Url(bucket: string, region: string, key: string): (url: string)
    ensures S3Prefix(bucket, region) <= url
    ensures url[|S3Prefix(bucket, region)|..] == key
  {
    S3Prefix(bucket, region) + key
  }

  /** Recovers the object key from a public object URL, if it is one. */
  function KeyOfUrl(bucket: string, region: string, url: string): (key: Option<string>)
    ensures key.Some? <==> S3Prefix(bucket, region) <= url
  {
    var p := S3Prefix(bucket, region);
    if p <= url then Some(url[|p|..]) else None
  }

  /** Building a URL from a key and reading the key back are inverse. */
  lemma UrlKeyRoundTrip(bucket: string, region: string, key: string)
    ensures KeyOfUrl(bucket, region, S3Url(bucket, region, key)) == Some(key)
  {
  }

  lemma KeyUrlRoundTrip(bucket: string, region: string, url: string)
    requires KeyOfUrl(bucket, region, url).Some?
    ensures S3Url(bucket, region, KeyOfUrl(bucket, region, url).value) == url
  {
    var p := S3Prefix(bucket, region);
    assert url == p + url[|p|..];
  }

  /** Distinct keys never share a URL, so the URL identifies the object. */
  lemma S3UrlInjective(bucket: string, region: string, k1: string, k2: string)
    requires S3Url(bucket, region, k1) == S3Url(bucket, region, k2)
    ensures k1 == k2
  {
    UrlKeyRoundTrip(bucket, region, k1);
    UrlKeyRoundTrip(bucket, region, k2);
  }

  /** `images.map(image => ({ url: <public URL of image.key>, key: image.key }))`:
      one `{url, key}` per stored image, in order, every other column dropped. */
  function ToImageRefs(bucket: string, region: string, images: seq<DbImage>): (r: seq<ImageRef>)
    ensures |r| == |images|
    ensures forall i :: 0 <= i < |images| ==>
      r[i].key == images[i].key && KeyOfUrl(bucket, region, r[i].url) == Some(images[i].key)
  {
    seq(|images|, i requires 0 <= i < |images| =>
      UrlKeyRoundTrip(bucket, region, images[i].key);
      ImageRef(S3Url(bucket, region, images[i].key), images[i].key))
  }

  // ---------------------------------------------------------------------------
  // Database rows

  /** The scalar columns of a listing row. Timestamps are integers. */
  datatype ListingFields = ListingFields(
    id: string,
    title: string,
    description: string,
    price: real,
    category: string,
    make: Option<string>,
    model: Option<string>,
    year: Option<int>,
    condition: string,
    location: string,
    endDate: int,
    status: string,
    sellerId: string,
    createdAt: int)

  /** An image row as stored, with its default flag. */
  datatype DbImage = DbImage(id: string, url: string, key: string, isDefault: bool, listingId: string)

  /** The `{url, key}` pair that the API hands to the client. */
  datatype ImageRef = ImageRef(url: string, key: string)

  /** The scalar columns of a bid row. */
  datatype BidFields = BidFields(id: string, amount: real, userId: string, listingId: string, createdAt: int)

  /** The authenticated user that the session provider resolves. */
  datatype SessionUser = SessionUser(id: string, email: Option<string>)
}

=== FILE: delete_route.dfy ===
/** `POST /api/user/delete`: close the signed-in user's account. After the
    checks, five deletions run inside one database transaction. */
module DeleteRoute {
  import opened Common
  import Ordering
  import SettingsRoute

  type UserRow = SettingsRoute.UserRow

  datatype SessionRow = SessionRow(id: string, userId: string)
  datatype AccountRow = AccountRow(id: string, userId: string, provider: string)

  /** The tables the handler touches. */
  datatype Store = Store(
    users: seq<UserRow>,
    listings: seq<ListingFields>,
    bids: seq<BidFields>,
    sessions: seq<SessionRow>,
    accounts: seq<AccountRow>)

  /** `findUnique({ where: { email } })`. */
  function FindByEmail(users: seq<UserRow>, email: string): Option<UserRow>
  {
    FindFirst(users, (u: UserRow) => u.email == email)
  }

  /** Nothing in the store still belongs to user `uid`. */
  ghost predicate Purged(s: Store, uid: string)
  {
    && (forall b :: b in s.bids ==> b.userId != uid)
    && (forall l :: l in s.listings ==> l.sellerId != uid)
    && (forall x :: x in s.sessions ==> x.userId != uid)
    && (forall a :: a in s.accounts ==> a.userId != uid)
    && (forall u :: u in s.users ==> u.id != uid)
  }

  /** Every record of `after` was in `before`, and every record of `before`
      that does not belong to `uid` is still there. */
  ghost predicate KeepsOthers(before: Store, after: Store, uid: string)
  {
    && (forall b :: b in after.bids <==> b in before.bids && b.userId != uid)
    && (forall l :: l in after.listings <==> l in before.listings && l.sellerId != uid)
    && (forall x :: x in after.sessions <==> x in before.sessions && x.userId != uid)
    && (forall a :: a in after.accounts <==> a in before.accounts && a.userId != uid)
    && (forall u :: u in after.users <==> u in before.users && u.id != uid)
  }

  /** The transaction body. `fault` names the statement (0 to 4) at which the
      database reports an error, if any; `user.delete` also fails when no row
      has the id. An error aborts the transaction: the result is `None` and
      none of the earlier deletions is kept. */
  function Transaction(s: Store, uid: string, fault: Option<nat>): (r: Option<Store>)
    ensures r.Some? ==> Purged(r.value, uid) && KeepsOthers(s, r.value, uid)
    ensures r.None? <==> (fault.Some? && fault.value < 5) || forall u :: u in s.users ==> u.id != uid
  {
    if fault == Some(0) then None else
    var s1 := s.(bids := Ordering.Where(s.bids, (b: BidFields) => b.userId != uid));
    if fault == Some(1) then None else
    var s2 := s1.(listings := Ordering.Where(s1.listings, (l: ListingFields) => l.sellerId != uid));
    if fault == Some(2) then None else
    var s3 := s2.(sessions := Ordering.Where(s2.sessions, (x: SessionRow) => x.userId != uid));
    if fault == Some(3) then None else
    var s4 := s3.(accounts := Ordering.Where(s3.accounts, (a: AccountRow) => a.userId != uid));
    if fault == Some(4) || forall u :: u in s4.users ==> u.id != uid then None else
    Some(s4.(users := Ordering.Where(s4.users, (u: UserRow) => u.id != uid)))
  }

  /** Every check before the transaction passes: a session with an email, a
      password, a user with that email, and a password that matches the
      stored hash when there is one. */
  predicate PasswordAccepted(session: Option<SessionUser>, password: string, s: Store,
                             compare: (string, string) -> bool)
  {
    && session.Some? && Truthy(session.value.email) && password != ""
    && var user := FindByEmail(s.users, session.value.email.value);
       user.Some? && (!Truthy(user.value.password) || compare(password, user.value.password.value))
  }

  /** The handler: the response and the store afterwards. `compare` stands
      for bcrypt. */
  function DeleteAccount(session: Option<SessionUser>, password: string, s: Store,
                         compare: (string, string) -> bool, fault: Option<nat>)
    : (r: (Response<string>, Store))
    // 401 and 400 are decided before the store is consulted
    ensures session.None? || !Truthy(session.value.email) ==>
      r == (Error(401, "You must be logged in to delete your account"), s)
    ensures session.Some? && Truthy(session.value.email) && password == "" ==>
      r == (Error(400, "Password is required to delete your account"), s)
    ensures r.0.Error? && r.0.status == 404 <==>
      session.Some? && Truthy(session.value.email) && password != ""
      && FindByEmail(s.users, session.value.email.value).None?
    // a wrong password for an account that has one: 400 and nothing deleted
    ensures (session.Some? && Truthy(session.value.email) && password != ""
             && FindByEmail(s.users, session.value.email.value).Some?
             && Truthy(FindByEmail(s.users, session.value.email.value).value.password)
             && !compare(password, FindByEmail(s.users, session.value.email.value).value.password.value))
            ==> r == (Error(400, "Invalid password"), s)
    // a failed transaction: 500 and nothing deleted, and only then
    ensures r.0.Error? && r.0.status == 500 ==> fault.Some? && fault.value < 5
    ensures PasswordAccepted(session, password, s, compare) && fault.Some? && fault.value < 5 ==>
      r == (Error(500, "Failed to delete account"), s)
    // whatever the outcome, the store is either untouched or fully purged
    ensures r.0.Error? ==> r.1 == s
    ensures r.0.Ok? ==> r.0 == Ok(200, "Account successfully deleted")
    ensures r.0.Ok? ==> (
      && session.Some? && Truthy(session.value.email)
      && FindByEmail(s.users, session.value.email.value).Some?
      && var uid := FindByEmail(s.users, session.value.email.value).value.id;
         Purged(r.1, uid) && KeepsOthers(s, r.1, uid))
  {
    if session.None? || !Truthy(session.value.email) then
      (Error(401, "You must be logged in to delete your account"), s)
    else if password == "" then
      (Error(400, "Password is required to delete your account"), s)
    else
      match FindByEmail(s.users, session.value.email.value)
      case None => (Error(404, "User not found"), s)
      case Some(user) =>
        if Truthy(user.password) && !compare(password, user.password.value) then
          (Error(400, "Invalid password"), s)
        else
          match Transaction(s, user.id, fault)
          case None => (Error(500, "Failed to delete account"), s)
          case Some(s') => (Ok(200, "Account successfully deleted"), s')
  }

  /** An account without a stored password is deleted with any non-empty
      password, unless the database fails. */
  lemma OAuthAccountNeedsNoPasswordMatch(session: SessionUser, password: string, s: Store,
                                         compare: (string, string) -> bool)
    requires Truthy(session.email) && password != ""
    requires FindByEmail(s.users, session.email.value).Some?
    requires !Truthy(FindByEmail(s.users, session.email.value).value.password)
    ensures DeleteAccount(Some(session), password, s, compare, None).0 == Ok(200, "Account successfully deleted")
  {
  }

  /** The account is deleted exactly when every check passes and the
      transaction commits. */
  lemma DeleteSucceedsIffNoCheckFails(session: Option<SessionUser>, password: string, s: Store,
                                      compare: (string, string) -> bool, fault: Option<nat>)
    ensures DeleteAccount(session, password, s, compare, fault).0.Ok? <==>
      && PasswordAccepted(session, password, s, compare)
      && !(fault.Some? && fault.value < 5)
  {
  }
}

=== FILE: entries.dfy ===
/** Ordered name/value lists. Two browser structures have this shape: a
    `URLSearchParams` (names may repeat) and a plain object's `Object.entries`
    (names are unique, in insertion order). Percent-encoding is not modelled:
    a query string is the entries joined as `name=value` with `&`. */
module Entries {
  import opened Common

  type Entry = (string, string)

  function Keys(ps: seq<Entry>): (ks: seq<string>)
    ensures |ks| == |ps|
    ensures forall i :: 0 <= i < |ps| ==> ks[i] == ps[i].0
  {
    seq(|ps|, i requires 0 <= i < |ps| => ps[i].0)
  }

  predicate HasKey(ps: seq<Entry>, k: string)
  {
    exists i :: 0 <= i < |ps| && ps[i].0 == k
  }

  /** No name occurs twice, as in the entries of an object. */
  ghost predicate UniqueKeys(ps: seq<Entry>)
  {
    forall i, j :: 0 <= i < j < |ps| ==> ps[i].0 != ps[j].0
  }

  /** `params.get(k)` / `obj[k]`: the value of the first entry named `k`. */
  function Get(ps: seq<Entry>, k: string): (r: Option<string>)
    ensures r.None? <==> !HasKey(ps, k)
    ensures r.Some? ==> (k, r.value) in ps
  {
    if |ps| == 0 then None
    else if ps[0].0 == k then Some(ps[0].1)
    else
      assert forall i :: 1 <= i < |ps| ==> ps[i] == ps[1..][i - 1];
      assert HasKey(ps[1..], k) ==> HasKey(ps, k);
      Get(ps[1..], k)
  }

  /** `params.append(k, v)`. */
  function Append(ps: seq<Entry>, k: string, v: string): (r: seq<Entry>)
    ensures |r| == |ps| + 1 && r[..|ps|] == ps && r[|ps|] == (k, v)
  {
    ps + [(k, v)]
  }

  /** The entries of `ps` not named `k`, in order. */
  function RemoveKey(ps: seq<Entry>, k: string): (r: seq<Entry>)
    ensures !HasKey(r, k)
    ensures forall e :: e in r <==> e in ps && e.0 != k
    ensures !HasKey(ps, k) ==> r == ps
  {
    if |ps| == 0 then []
    else
      var rest := RemoveKey(ps[1..], k);
      assert ps == [ps[0]] + ps[1..];
      if ps[0].0 == k then rest else [ps[0]] + rest
  }

  function ReplaceFirstDropRest(ps: seq<Entry>, k: string, v: string): seq<Entry>
  {
    if |ps| == 0 then []
    else if ps[0].0 == k then [(k, v)] + RemoveKey(ps[1..], k)
    else [ps[0]] + ReplaceFirstDropRest(ps[1..], k, v)
  }

  /** `params.set(k, v)`: the first entry named `k` takes the value `v` and the
      other entries named `k` are removed; with no such entry, `(k, v)` is
      appended. */
  function Set(ps: seq<Entry>, k: string, v: string): seq<Entry>
  {
    if HasKey(ps, k) then ReplaceFirstDropRest(ps, k, v) else Append(ps, k, v)
  }

  /** Every entry named `k` takes the value `v`; positions are kept. */
  function Overwrite(obj: seq<Entry>, k: string, v: string): (r: seq<Entry>)
    ensures |r| == |obj|
    ensures forall i :: 0 <= i < |obj| ==> r[i] == (if obj[i].0 == k then (k, v) else obj[i])
  {
    seq(|obj|, i requires 0 <= i < |obj| => if obj[i].0 == k then (k, v) else obj[i])
  }

  /** `{ ...obj, [k]: v }` on an object: an existing property keeps its
      position and takes the new value; a new one is added last. */
  function Assign(obj: seq<Entry>, k: string, v: string): (r: seq<Entry>)
    ensures HasKey(obj, k) ==> |r| == |obj| && Keys(r) == Keys(obj)
    ensures !HasKey(obj, k) ==> r == obj + [(k, v)]
    ensures Get(r, k) == Some(v)
  {
    if HasKey(obj, k) then
      var r := Overwrite(obj, k, v);
      assert Keys(r) == Keys(obj);
      var i :| 0 <= i < |obj| && obj[i].0 == k;
      GetFirst(r, i, k);
      r
    else
      GetAppended(obj, k, v);
      obj + [(k, v)]
  }

  lemma GetFirst(ps: seq<Entry>, i: nat, k: string)
    requires i < |ps| && ps[i].0 == k
    requires forall j :: 0 <= j < |ps| && ps[j].0 == k ==> ps[j] == ps[i]
    ensures Get(ps, k) == Some(ps[i].1)
  {
  }

  lemma GetAppended(ps: seq<Entry>, k: string, v: string)
    requires !HasKey(ps, k)
    ensures Get(ps + [(k, v)], k) == Some(v)
  {
    var r := ps + [(k, v)];
    assert r[|ps|] == (k, v);
  }

  /** Changing one property leaves every other property as it was. */
  lemma {:induction false} AssignOthersUnchanged(obj: seq<Entry>, k: string, v: string, other: string)
    requires other != k
    ensures Get(Assign(obj, k, v), other) == Get(obj, other)
  {
    var r := Assign(obj, k, v);
    if HasKey(obj, k) {
      GetSamePositions(obj, r, other);
    } else {
      GetPrefix(obj, k, v, other);
    }
  }

  lemma {:induction false} GetSamePositions(a: seq<Entry>, b: seq<Entry>, k: string)
    requires |a| == |b|
    requires forall i :: 0 <= i < |a| ==> (a[i].0 == k <==> b[i].0 == k)
    requires forall i :: 0 <= i < |a| && a[i].0 == k ==> b[i] == a[i]
    ensures Get(a, k) == Get(b, k)
    decreases |a|
  {
    if |a| > 0 && a[0].0 != k {
      GetSamePositions(a[1..], b[1..], k);
    }
  }

  lemma {:induction false} GetPrefix(ps: seq<Entry>, k: string, v: string, other: string)
    requires other != k
    ensures Get(ps + [(k, v)], other) == Get(ps, other)
    decreases |ps|
  {
    if |ps| > 0 && ps[0].0 != other {
      assert (ps + [(k, v)])[1..] == ps[1..] + [(k, v)];
      GetPrefix(ps[1..], k, v, other);
    } else if |ps| == 0 {
      assert (ps + [(k, v)])[1..] == [];
    }
  }

  /** An object keeps its names unique under property assignment. */
  lemma AssignKeepsUnique(obj: seq<Entry>, k: string, v: string)
    requires UniqueKeys(obj)
    ensures UniqueKeys(Assign(obj, k, v))
  {
    var r := Assign(obj, k, v);
    if HasKey(obj, k) {
      assert forall i :: 0 <= i < |r| ==> r[i].0 == Keys(r)[i] == Keys(obj)[i];
    }
  }

  lemma TailUnique(ps: seq<Entry>)
    requires |ps| > 0 && UniqueKeys(ps)
    ensures UniqueKeys(ps[1..])
    ensures !HasKey(ps[1..], ps[0].0)
  {
    var tail := ps[1..];
    forall i, j | 0 <= i < j < |tail| ensures tail[i].0 != tail[j].0 {
      assert tail[i] == ps[i + 1] && tail[j] == ps[j + 1];
    }
    forall i | 0 <= i < |tail| ensures tail[i].0 != ps[0].0 {
      assert tail[i] == ps[i + 1];
    }
  }

  /** A form's `handleFilterChange`: `setFilters(prev => ({ ...prev, [name]: value }))`
      on a state whose names are unique. */
  function UpdateField(filters: seq<Entry>, name: string, value: string): (r: seq<Entry>)
    requires UniqueKeys(filters)
    ensures UniqueKeys(r)
    ensures Get(r, name) == Some(value)
    ensures forall k :: k != name ==> Get(r, k) == Get(filters, k)
    // a field the form already has keeps its place
    ensures HasKey(filters, name) ==> Keys(r) == Keys(filters)
  {
    AssignKeepsUnique(filters, name, value);
    forall k | k != name ensures Get(Assign(filters, name, value), k) == Get(filters, k) {
      AssignOthersUnchanged(filters, name, value, k);
    }
    Assign(filters, name, value)
  }

  lemma AssignCons(ps: seq<Entry>, k: string, v: string)
    requires |ps| > 0 && ps[0].0 != k && HasKey(ps, k)
    ensures Assign(ps, k, v) == [ps[0]] + Assign(ps[1..], k, v)
  {
    var i :| 0 <= i < |ps| && ps[i].0 == k;
    assert ps[1..][i - 1].0 == k;
    var a := Overwrite(ps, k, v);
    var b := [ps[0]] + Overwrite(ps[1..], k, v);
    assert |a| == |b|;
    forall j | 0 <= j < |a| ensures a[j] == b[j] {
      if j > 0 {
        assert ps[j] == ps[1..][j - 1];
      }
    }
  }

  lemma AssignHead(ps: seq<Entry>, k: string, v: string)
    requires |ps| > 0 && ps[0].0 == k && !HasKey(ps[1..], k)
    ensures Assign(ps, k, v) == [(k, v)] + ps[1..]
  {
    var a := Overwrite(ps, k, v);
    var b := [(k, v)] + ps[1..];
    assert |a| == |b|;
    forall j | 0 <= j < |a| ensures a[j] == b[j] {
      if j > 0 {
        assert ps[j] == ps[1..][j - 1];
      }
    }
  }

  /** On a list whose names are unique, `params.set` and object assignment
      agree: both replace the one entry named `k` in place, or append. */
  lemma {:induction false} SetIsAssignOnUnique(ps: seq<Entry>, k: string, v: string)
    requires UniqueKeys(ps)
    ensures Set(ps, k, v) == Assign(ps, k, v)
    decreases |ps|
  {
    if HasKey(ps, k) {
      TailUnique(ps);
      var tail := ps[1..];
      if ps[0].0 == k {
        AssignHead(ps, k, v);
        assert Set(ps, k, v) == [(k, v)] + RemoveKey(tail, k);
      } else {
        var i :| 0 <= i < |ps| && ps[i].0 == k;
        assert tail[i - 1].0 == k;
        SetIsAssignOnUnique(tail, k, v);
        AssignCons(ps, k, v);
        assert Set(ps, k, v) == [ps[0]] + Set(tail, k, v);
      }
    }
  }

  // ---------------------------------------------------------------------------
  // Query strings built from an object's entries

  /** The entries whose value is truthy (a non-empty string), in order. */
  function NonEmpty(ps: seq<Entry>): (r: seq<Entry>)
  {
    if |ps| == 0 then []
    else if ps[0].1 != "" then [ps[0]] + NonEmpty(ps[1..]) else NonEmpty(ps[1..])
  }

  /** The truthy entries are exactly the entries with a non-empty value. */
  lemma {:induction false} NonEmptyMembers(ps: seq<Entry>)
    ensures forall e :: e in NonEmpty(ps) <==> e in ps && e.1 != ""
    decreases |ps|
  {
    if |ps| > 0 {
      NonEmptyMembers(ps[1..]);
      assert ps == [ps[0]] + ps[1..];
    }
  }

  /** `Object.entries(obj).forEach(([k, v]) => { if (v) params.append(k, v) })`,
      starting from the list `acc`. */
  function AppendTruthy(acc: seq<Entry>, es: seq<Entry>): seq<Entry>
    decreases |es|
  {
    if |es| == 0 then acc
    else AppendTruthy(if es[0].1 != "" then Append(acc, es[0].0, es[0].1) else acc, es[1..])
  }

  /** One turn of the loop body `if (v) params.set(k, v)`. */
  function SetIfTruthy(acc: seq<Entry>, e: Entry): seq<Entry>
  {
    if e.1 != "" then Set(acc, e.0, e.1) else acc
  }

  /** The same loop with `params.set` in place of `params.append`. */
  function SetTruthy(acc: seq<Entry>, es: seq<Entry>): seq<Entry>
    decreases |es|
  {
    if |es| == 0 then acc
    else SetTruthy(SetIfTruthy(acc, es[0]), es[1..])
  }

  /** The append loop adds exactly the truthy entries, in order. */
  lemma {:induction false} AppendTruthyIsNonEmpty(acc: seq<Entry>, es: seq<Entry>)
    ensures AppendTruthy(acc, es) == acc + NonEmpty(es)
    decreases |es|
  {
    if |es| > 0 {
      var acc' := if es[0].1 != "" then Append(acc, es[0].0, es[0].1) else acc;
      AppendTruthyIsNonEmpty(acc', es[1..]);
      assert es == [es[0]] + es[1..];
    }
  }

  /** `params.set` with a name not yet present appends. */
  lemma SetFresh(acc: seq<Entry>, k: string, v: string)
    requires !HasKey(acc, k)
    ensures Set(acc, k, v) == acc + [(k, v)]
  {
  }

  lemma DisjointStep(acc: seq<Entry>, es: seq<Entry>, acc': seq<Entry>)
    requires |es| > 0
    requires forall i, j :: 0 <= i < |acc| && 0 <= j < |es| ==> acc[i].0 != es[j].0
    requires !HasKey(es[1..], es[0].0)
    requires acc' == acc || acc' == acc + [es[0]]
    ensures forall i, j :: 0 <= i < |acc'| && 0 <= j < |es[1..]| ==> acc'[i].0 != es[1..][j].0
  {
    forall i, j | 0 <= i < |acc'| && 0 <= j < |es[1..]|
      ensures acc'[i].0 != es[1..][j].0
    {
      assert es[1..][j] == es[j + 1];
      if i < |acc| {
        assert acc'[i] == acc[i];
      } else {
        assert acc'[i] == es[0];
      }
    }
  }

  /** One turn of the set loop on a name it has not added yet appends the
      entry exactly when its value is truthy. */
  lemma SetIfTruthyFresh(acc: seq<Entry>, e: Entry)
    requires forall i :: 0 <= i < |acc| ==> acc[i].0 != e.0
    ensures SetIfTruthy(acc, e) == if e.1 != "" then acc + [e] else acc
  {
    if e.1 != "" {
      SetFresh(acc, e.0, e.1);
    }
  }

  lemma NonEmptyCons(es: seq<Entry>)
    requires |es| > 0
    ensures NonEmpty(es) == (if es[0].1 != "" then [es[0]] else []) + NonEmpty(es[1..])
  {
  }

  /** When the object's names are unique, the set loop never meets a name it
      has already added, so it too adds exactly the truthy entries in order. */
  lemma {:induction false} SetTruthyIsNonEmpty(acc: seq<Entry>, es: seq<Entry>)
    requires UniqueKeys(es)
    requires forall i, j :: 0 <= i < |acc| && 0 <= j < |es| ==> acc[i].0 != es[j].0
    ensures SetTruthy(acc, es) == acc + NonEmpty(es)
    decreases |es|
  {
    if |es| > 0 {
      var acc' := SetIfTruthy(acc, es[0]);
      assert acc' == if es[0].1 != "" then acc + [es[0]] else acc by {
        SetIfTruthyFresh(acc, es[0]);
      }
      assert SetTruthy(acc', es[1..]) == acc' + NonEmpty(es[1..]) by {
        TailUnique(es);
        DisjointStep(acc, es, acc');
        SetTruthyIsNonEmpty(acc', es[1..]);
      }
      NonEmptyCons(es);
      if es[0].1 != "" {
        assert acc' + NonEmpty(es[1..]) == acc + ([es[0]] + NonEmpty(es[1..]));
      } else {
        assert NonEmpty(es) == NonEmpty(es[1..]);
      }
      assert SetTruthy(acc, es) == SetTruthy(acc', es[1..]);
    }
  }

  /** Names stay unique when some entries are dropped. */
  lemma {:induction false} NonEmptyKeepsUnique(ps: seq<Entry>)
    requires UniqueKeys(ps)
    ensures UniqueKeys(NonEmpty(ps))
    decreases |ps|
  {
    if |ps| > 0 {
      var tail := ps[1..];
      assert UniqueKeys(tail) by {
        forall i, j | 0 <= i < j < |tail| ensures tail[i].0 != tail[j].0 {
          assert tail[i] == ps[i + 1] && tail[j] == ps[j + 1];
        }
      }
      NonEmptyKeepsUnique(tail);
      NonEmptyMembers(tail);
      var r := NonEmpty(tail);
      if ps[0].1 != "" {
        forall j | 0 <= j < |r| ensures r[j].0 != ps[0].0 {
          assert r[j] in tail;
          var m :| 0 <= m < |tail| && tail[m] == r[j];
          assert tail[m] == ps[m + 1];
        }
        var full := [ps[0]] + r;
        forall i, j | 0 <= i < j < |full| ensures full[i].0 != full[j].0 {
          if i > 0 {
            assert full[i] == r[i - 1] && full[j] == r[j - 1];
          } else {
            assert full[j] == r[j - 1];
          }
        }
      }
    }
  }

  /** `params.toString()`, without percent-encoding. */
  function ToQueryString(ps: seq<Entry>): (s: string)
    ensures |ps| == 0 <==> s == ""
  {
    if |ps| == 0 then ""
    else if |ps| == 1 then ps[0].0 + "=" + ps[0].1
    else ps[0].0 + "=" + ps[0].1 + "&" + ToQueryString(ps[1..])
  }
}

=== FILE: gallery_view.dfy ===
/** The listing photo gallery: a current index that the arrows, swipes,
    keys, dots and thumbnails move, a loading flag, and a full-screen modal. */
module GalleryView {

  /** JavaScript's `%`: the remainder takes the sign of the dividend. */
  function JsRem(a: int, n: int): (r: int)
    requires n > 0
    ensures a >= 0 ==> 0 <= r < n && r == a % n
    ensures a < 0 ==> -n < r <= 0
  {
    if a >= 0 then a % n else -((-a) % n)
  }

  /** `(prev + 1) % images.length`. The gallery shows no controls, and its
      modal cannot open, when there are no images, so `n > 0` here. */
  function Next(i: int, n: int): (r: int)
    requires n > 0
    ensures 0 <= i ==> 0 <= r < n
    ensures 0 <= i < n - 1 ==> r == i + 1
    ensures i == n - 1 ==> r == 0
  {
    JsRem(i + 1, n)
  }

  /** `(prev - 1 + images.length) % images.length`. */
  function Prev(i: int, n: int): (r: int)
    requires n > 0
    ensures 0 <= i < n ==> 0 <= r < n
    ensures 0 < i < n ==> r == i - 1
    ensures i == 0 ==> r == n - 1
  {
    JsRem(i - 1 + n, n)
  }

  /** Going forward and back, or back and forward, returns to the start. */
  lemma NextPrevInverse(i: int, n: int)
    requires 0 <= i < n
    ensures Prev(Next(i, n), n) == i
    ensures Next(Prev(i, n), n) == i
  {
  }

  /** `k` presses of "next". */
  function NextTimes(i: int, n: int, k: nat): int
    requires n > 0
  {
    if k == 0 then i else Next(NextTimes(i, n, k - 1), n)
  }

  /** `k <= n` presses of "next" from an index in range advance it by `k`,
      wrapping past the last image once. */
  lemma {:induction false} NextTimesAdvances(i: int, n: int, k: nat)
    requires 0 <= i < n && k <= n
    ensures NextTimes(i, n, k) == if i + k < n then i + k else i + k - n
  {
    if k > 0 {
      NextTimesAdvances(i, n, k - 1);
    }
  }

  /** Pressing "next" once per image cycles back to where it started. */
  lemma FullCycle(i: int, n: int)
    requires 0 <= i < n
    ensures NextTimes(i, n, n) == i
  {
    NextTimesAdvances(i, n, n);
  }

  /** With one image, both arrows stay on it. */
  lemma SingleImage()
    ensures Next(0, 1) == 0 && Prev(0, 1) == 0
  {
  }

  // ---------------------------------------------------------------------------
  // The component's state and events

  /** The component's state. `touchStart` and `touchEnd` are the x
      coordinates the touch handlers last recorded; both start at 0. */
  datatype Gallery = Gallery(index: int, loading: bool, modalOpen: bool, touchStart: real, touchEnd: real)

  const Initial: Gallery := Gallery(0, true, false, 0.0, 0.0)

  /** `nextImage()`: advance and show the spinner until the image loads. */
  function NextImage(g: Gallery, n: int): (g': Gallery)
    requires n > 0
    ensures 0 <= g.index ==> 0 <= g'.index < n
    ensures 0 <= g.index < n - 1 ==> g'.index == g.index + 1
    ensures g.index == n - 1 ==> g'.index == 0
    ensures g'.loading
    ensures g'.modalOpen == g.modalOpen && g'.touchStart == g.touchStart && g'.touchEnd == g.touchEnd
  {
    g.(index := Next(g.index, n), loading := true)
  }

  /** `prevImage()`: go back and show the spinner until the image loads. */
  function PrevImage(g: Gallery, n: int): (g': Gallery)
    requires n > 0
    ensures 0 <= g.index < n ==> 0 <= g'.index < n
    ensures 0 < g.index < n ==> g'.index == g.index - 1
    ensures g.index == 0 ==> g'.index == n - 1
    ensures g'.loading
    ensures g'.modalOpen == g.modalOpen && g'.touchStart == g.touchStart && g'.touchEnd == g.touchEnd
  {
    g.(index := Prev(g.index, n), loading := true)
  }

  /** The horizontal distance a swipe must exceed, in CSS pixels. */
  const SwipeThreshold: real := 75.0

  /** `handleTouchStart`: records where the finger went down. The end
      coordinate is not reset, so it still holds the previous gesture's. */
  function TouchStart(g: Gallery, x: real): Gallery
  {
    g.(touchStart := x)
  }

  /** `handleTouchMove`: records where the finger is now. */
  function TouchMove(g: Gallery, x: real): Gallery
  {
    g.(touchEnd := x)
  }

  /** `handleTouchEnd()` on the recorded coordinates: a leftward distance of
      more than 75 px advances, a rightward one goes back. */
  function TouchEnd(g: Gallery, n: int): (g': Gallery)
    requires n > 0
    ensures g.touchStart - g.touchEnd > SwipeThreshold ==> g' == NextImage(g, n)
    ensures g.touchStart - g.touchEnd < -SwipeThreshold ==> g' == PrevImage(g, n)
    ensures -SwipeThreshold <= g.touchStart - g.touchEnd <= SwipeThreshold ==> g' == g
  {
    var d := g.touchStart - g.touchEnd;
    var g1 := if d > SwipeThreshold then NextImage(g, n) else g;
    if d < -SwipeThreshold then PrevImage(g1, n) else g1
  }

  /** A whole gesture: the finger goes down at `start`, moves through `moves`
      and lifts. */
  function Gesture(g: Gallery, n: int, start: real, moves: seq<real>): Gallery
    requires n > 0
  {
    var down := TouchStart(g, start);
    TouchEnd(if |moves| == 0 then down else TouchMove(down, moves[|moves| - 1]), n)
  }

  /** A gesture that moves lifts where it last moved: it changes the image
      exactly when that point is more than 75 px from where it started. */
  lemma SwipeDecidedByDistance(g: Gallery, n: int, start: real, moves: seq<real>)
    requires n > 0 && |moves| > 0
    ensures var last := moves[|moves| - 1];
      && (start - last > SwipeThreshold ==> Gesture(g, n, start, moves).index == Next(g.index, n))
      && (last - start > SwipeThreshold ==> Gesture(g, n, start, moves).index == Prev(g.index, n))
      && (-SwipeThreshold <= start - last <= SwipeThreshold ==> Gesture(g, n, start, moves).index == g.index)
  {
  }

  /** A tap that does not move is measured against the previous gesture's
      end point: on a fresh gallery of two images, tapping at x = 100 turns
      to the second image, and tapping back near where a leftward swipe
      ended turns back again. */
  lemma TapUsesStaleEnd()
    ensures Gesture(Initial, 2, 100.0, []).index == 1
    ensures Gesture(Gesture(Initial, 2, 300.0, [100.0]), 2, 0.0, []).index == 0
  {
  }

  /** A click on the main image opens the full-screen modal. */
  function OpenModal(g: Gallery): (g': Gallery)
    ensures g'.modalOpen && g'.index == g.index && g'.loading == g.loading
  {
    g.(modalOpen := true)
  }

  /** A click on the modal's backdrop or its close button closes it. */
  function CloseModal(g: Gallery): (g': Gallery)
    ensures !g'.modalOpen && g'.index == g.index && g'.loading == g.loading
  {
    g.(modalOpen := false)
  }

  /** The keys act once the modal is open: after the click that opens it,
      ArrowRight advances and Escape closes it again, as its close button does. */
  lemma KeysNeedOpenModal(g: Gallery, n: int)
    requires n > 0 && !g.modalOpen
    ensures KeyDown(g, n, "ArrowRight") == g
    ensures KeyDown(OpenModal(g), n, "ArrowRight").index == Next(g.index, n)
    ensures KeyDown(OpenModal(g), n, "Escape") == CloseModal(OpenModal(g))
  {
  }

  /** `handleKeyDown(e)`: the arrows and Escape act only while the modal is open. */
  function KeyDown(g: Gallery, n: int, key: string): (g': Gallery)
    requires n > 0
    ensures !g.modalOpen ==> g' == g
    ensures g.modalOpen && key == "ArrowRight" ==> g' == NextImage(g, n)
    ensures g.modalOpen && key == "ArrowLeft" ==> g' == PrevImage(g, n)
    ensures g.modalOpen && key == "Escape" ==> g' == g.(modalOpen := false)
    ensures key !in {"ArrowRight", "ArrowLeft", "Escape"} ==> g' == g
  {
    if !g.modalOpen then g
    else
      var g1 := if key == "ArrowRight" then NextImage(g, n) else g;
      var g2 := if key == "ArrowLeft" then PrevImage(g1, n) else g1;
      if key == "Escape" then g2.(modalOpen := false) else g2
  }

  /** A click on dot or thumbnail `k`. */
  function Select(g: Gallery, k: int): (g': Gallery)
    ensures g'.index == k && g'.loading && g'.modalOpen == g.modalOpen
  {
    g.(index := k, loading := true)
  }

  /** Every event keeps the index in range, and any event that moves it
      raises the loading flag. */
  lemma EventsKeepIndexInRange(g: Gallery, n: int, key: string, start: real, moves: seq<real>, k: int)
    requires 0 <= g.index < n
    requires 0 <= k < n
    ensures 0 <= NextImage(g, n).index < n && 0 <= PrevImage(g, n).index < n
    ensures 0 <= Gesture(g, n, start, moves).index < n
    ensures 0 <= KeyDown(g, n, key).index < n
    ensures 0 <= Select(g, k).index < n
    ensures Gesture(g, n, start, moves).index != g.index ==> Gesture(g, n, start, moves).loading
    ensures KeyDown(g, n, key).index != g.index ==> KeyDown(g, n, key).loading
  {
  }
}

=== FILE: image_cropper.dfy ===
/** The crop dialog shown before an upload: a crop rectangle, an optional
    16:9 aspect lock, and the guard before the cropped image is produced. */
module ImageCropper {
  import opened Common
  import ImageOptimization

  type Rect = ImageOptimization.Rect

  /** A crop as the crop widget reports it; `unit` is "%" or "px". */
  datatype Crop = Crop(unit: string, width: real, height: real, x: real, y: real)

  /** `imageMounted` stands for the `imageRef` state, which the `<img>`
      element's callback ref sets once the element is in the page, before
      its picture has necessarily finished loading. */
  datatype Cropper = Cropper(crop: Crop, aspect: Option<real>, imageMounted: bool)

  const WideAspect: real := 16.0 / 9.0

  /** The whole image, in percent, with no aspect lock. */
  const InitialCrop: Crop := Crop("%", 100.0, 100.0, 0.0, 0.0)
  const Initial: Cropper := Cropper(InitialCrop, None, false)

  /** `aspect ? … : …`: an unset aspect, or 0, is falsy. */
  predicate Locked(aspect: Option<real>)
  {
    aspect.Some? && aspect.value != 0.0
  }

  /** `toggleAspectRatio()`: switch between free and 16:9, and reset the crop
      to the full width, starting at the top-left corner. */
  function Toggle(st: Cropper): (r: Cropper)
    ensures Locked(r.aspect) <==> !Locked(st.aspect)
    ensures r.aspect.Some? ==> r.aspect.value == WideAspect
    ensures r.crop.unit == "%" && r.crop.width == 100.0 && r.crop.x == 0.0 && r.crop.y == 0.0
    // the reset crop already has the locked ratio, and is full height when free
    ensures Locked(r.aspect) ==> r.crop.width == r.aspect.value * r.crop.height
    ensures !Locked(r.aspect) ==> r.crop.height == 100.0
    ensures r.imageMounted == st.imageMounted
  {
    var wasLocked := Locked(st.aspect);
    Cropper(
      Crop("%", 100.0, if wasLocked then 100.0 else 100.0 * 9.0 / 16.0, 0.0, 0.0),
      if wasLocked then None else Some(16.0 / 9.0),
      st.imageMounted)
  }

  /** Locking then unlocking returns to the initial dialog. */
  lemma ToggleTwiceRestores(imageMounted: bool)
    ensures Toggle(Toggle(Initial.(imageMounted := imageMounted))) == Initial.(imageMounted := imageMounted)
  {
  }

  /** The first toggle locks 16:9 with a 100 x 56.25 percent crop. */
  lemma FirstToggleLocks()
    ensures Toggle(Initial).aspect == Some(WideAspect)
    ensures Toggle(Initial).crop == Crop("%", 100.0, 56.25, 0.0, 0.0)
  {
  }

  /** `handleCropComplete()`: nothing happens until the image element is
      mounted and the crop has a non-zero width and height. */
  function CropToProduce(st: Cropper): (r: Option<Crop>)
    ensures r.Some? <==> st.imageMounted && st.crop.width != 0.0 && st.crop.height != 0.0
    ensures r.Some? ==> r.value == st.crop
  {
    if !st.imageMounted || st.crop.width == 0.0 || st.crop.height == 0.0 then None else Some(st.crop)
  }

  /** The dialog's own controls never leave a crop that completion would
      refuse: once the image is mounted, the initial crop and every crop the
      aspect toggle resets to are produced as they are. */
  lemma ControlsKeepCropUsable(st: Cropper)
    requires st.imageMounted
    ensures CropToProduce(Initial.(imageMounted := true)) == Some(InitialCrop)
    ensures CropToProduce(Toggle(st)) == Some(Toggle(st).crop)
  {
  }

  /** The image rectangle the cropped file is cut from AS WRITTEN: the crop's
      numbers go to `createCanvas` as pixels whatever their unit. */
  function CutAsWritten(st: Cropper): (r: Option<ImageOptimization.Canvas>)
    ensures r.Some? <==> CropToProduce(st).Some?
  {
    match CropToProduce(st)
    case None => None
    case Some(c) => Some(ImageOptimization.CreateCanvas(ImageOptimization.Rect(c.x, c.y, c.width, c.height)))
  }

  /** Confirming the initial crop cuts the image's top-left 100 x 100
      pixels whatever its size (a 1600 x 900 photo, say), not the whole
      image the dialog shows as selected. */
  lemma InitialCropCutsCorner()
    ensures CutAsWritten(Initial.(imageMounted := true)) ==
      Some(ImageOptimization.Canvas(100.0, 100.0,
        ImageOptimization.Rect(0.0, 0.0, 100.0, 100.0), ImageOptimization.Rect(0.0, 0.0, 100.0, 100.0)))
  {
  }

  /** A crop in image pixels: percentages are taken of the image's natural size. */
  function ToPixels(c: Crop, imageWidth: real, imageHeight: real): (r: Rect)
    ensures c.unit != "%" ==> r == ImageOptimization.Rect(c.x, c.y, c.width, c.height)
    ensures c.unit == "%" ==> r.width * 100.0 == c.width * imageWidth && r.height * 100.0 == c.height * imageHeight
  {
    if c.unit == "%" then
      ImageOptimization.Rect(c.x * imageWidth / 100.0, c.y * imageHeight / 100.0,
                             c.width * imageWidth / 100.0, c.height * imageHeight / 100.0)
    else ImageOptimization.Rect(c.x, c.y, c.width, c.height)
  }

  /** The intended cut: the crop converted to image pixels first. */
  function Cut(st: Cropper, imageWidth: real, imageHeight: real): (r: Option<ImageOptimization.Canvas>)
    ensures r.Some? <==> CropToProduce(st).Some?
    ensures r.Some? ==> r.value.source == ToPixels(st.crop, imageWidth, imageHeight)
    // on a pixel crop the intended cut and the written one agree
    ensures st.crop.unit != "%" ==> r == CutAsWritten(st)
  {
    match CropToProduce(st)
    case None => None
    case Some(c) => Some(ImageOptimization.CreateCanvas(ToPixels(c, imageWidth, imageHeight)))
  }

  /** With the intended cut, confirming the initial crop keeps the whole image. */
  lemma InitialCropKeepsWholeImage(imageWidth: real, imageHeight: real)
    ensures Cut(Initial.(imageMounted := true), imageWidth, imageHeight).value.source ==
      ImageOptimization.Rect(0.0, 0.0, imageWidth, imageHeight)
  {
  }
}

=== FILE: image_optimization.dfy ===
/** Image geometry helpers: the canvas a crop is copied into, and the resize
    that fits an image inside a bounding box before upload. Dimensions are
    real numbers; the truncation when a canvas size is assigned, the drawing
    itself and the JPEG encoding are not modelled. */
module ImageOptimization {

  /** A rectangle in image pixels. */
  datatype Rect = Rect(x: real, y: real, width: real, height: real)

  /** A canvas and the copy made into it: `source` is the part of the image
      read, `target` where it lands on the canvas. */
  datatype Canvas = Canvas(width: real, height: real, source: Rect, target: Rect)

  /** One coordinate of `drawImage`'s copy: the source interval starting at
      `s0` with length `sLen` is stretched linearly onto the target interval
      starting at `t0` with length `tLen`; `DrawMap` gives the source
      coordinate painted at target coordinate `t`. */
  function DrawMap(s0: real, sLen: real, t0: real, tLen: real, t: real): real
    requires tLen != 0.0
  {
    s0 + (t - t0) * sLen / tLen
  }

  /** The image point that `drawImage(image, sx, sy, sw, sh, dx, dy, dw, dh)`
      paints at canvas point (u, v). */
  function SourcePoint(c: Canvas, u: real, v: real): (real, real)
    requires c.target.width != 0.0 && c.target.height != 0.0
  {
    (DrawMap(c.source.x, c.source.width, c.target.x, c.target.width, u),
     DrawMap(c.source.y, c.source.height, c.target.y, c.target.height, v))
  }

  /** `createCanvas(image, crop)`: a canvas of the crop's size holding the
      crop's rectangle of the image at scale 1. */
  function CreateCanvas(crop: Rect): (c: Canvas)
    ensures c.width == crop.width && c.height == crop.height
    ensures c.source == crop
    ensures c.target == Rect(0.0, 0.0, c.width, c.height)
    // every canvas point shows the image point offset by the crop's corner
    ensures crop.width > 0.0 && crop.height > 0.0 ==>
      forall u: real, v: real {:trigger SourcePoint(c, u, v)} ::
        SourcePoint(c, u, v) == (crop.x + u, crop.y + v)
  {
    var c := Canvas(crop.width, crop.height, crop, Rect(0.0, 0.0, crop.width, crop.height));
    if crop.width > 0.0 && crop.height > 0.0 then
      assert forall u: real, v: real {:trigger SourcePoint(c, u, v)} ::
        SourcePoint(c, u, v) == (crop.x + u, crop.y + v) by {
        forall u: real, v: real
          ensures SourcePoint(c, u, v) == (crop.x + u, crop.y + v)
        {
          PointAtScaleOne(c, u, v);
        }
      }
      c
    else c
  }

  /** A copy whose target is the source's size, placed at the canvas
      origin, moves every point by the source's corner and no more. */
  lemma PointAtScaleOne(c: Canvas, u: real, v: real)
    requires c.target == Rect(0.0, 0.0, c.source.width, c.source.height)
    requires c.source.width > 0.0 && c.source.height > 0.0
    ensures SourcePoint(c, u, v) == (c.source.x + u, c.source.y + v)
  {
    UnitScale(c.source.x, c.source.width, u);
    UnitScale(c.source.y, c.source.height, v);
  }

  /** Stretching an interval onto one of the same length at the origin
      moves nothing. */
  lemma UnitScale(s0: real, len: real, t: real)
    requires len > 0.0
    ensures DrawMap(s0, len, 0.0, len, t) == s0 + t
  {
    var q := t * len / len;
    assert q * len == t * len;
  }

  const DefaultMaxWidth: real := 800.0
  const DefaultMaxHeight: real := 800.0

  /** One step of the resize: if `side` exceeds `bound`, it becomes `bound`
      and `other` is scaled by the same factor. */
  function Shrink(side: real, other: real, bound: real): (r: (real, real))
    requires side >= 0.0 && other >= 0.0 && bound >= 0.0
    ensures 0.0 <= r.0 <= side && 0.0 <= r.1 <= other
    ensures side > bound ==> r.0 == bound
    ensures side <= bound ==> r == (side, other)
    ensures r.0 * other == r.1 * side
  {
    if side > bound then
      ScaleDown(other, bound, side);
      var o := other * bound / side;
      assert o * side == other * bound;
      (bound, o)
    else (side, other)
  }

  /** The size `optimizeImage` draws at: first shrink to the width bound,
      then, if still too tall, shrink to the height bound, each time scaling
      the other side in proportion. */
  function FitWithin(width: real, height: real, maxWidth: real, maxHeight: real): (r: (real, real))
    requires width >= 0.0 && height >= 0.0 && maxWidth >= 0.0 && maxHeight >= 0.0
    // inside the box
    ensures 0.0 <= r.0 <= maxWidth && 0.0 <= r.1 <= maxHeight
    // never larger than the original
    ensures r.0 <= width && r.1 <= height
    // an image that fits already is left alone
    ensures width <= maxWidth && height <= maxHeight ==> r == (width, height)
    // a shrunk image touches the box
    ensures width > maxWidth || height > maxHeight ==> r.0 == maxWidth || r.1 == maxHeight
    // the aspect ratio is kept (cross-multiplied, so zero sides are allowed)
    ensures r.0 * height == r.1 * width
  {
    var (w1, h1) := Shrink(width, height, maxWidth);
    var (h2, w2) := Shrink(h1, w1, maxHeight);
    RatioChain(width, height, w1, h1, w2, h2);
    (w2, h2)
  }

  /** Two proportional scalings compose to a proportional scaling. */
  lemma RatioChain(w: real, h: real, w1: real, h1: real, w2: real, h2: real)
    requires w >= 0.0 && h >= 0.0 && 0.0 <= w1 <= w && 0.0 <= h1 <= h
    requires w1 * h == h1 * w
    requires h2 * w1 == w2 * h1
    requires h1 == 0.0 ==> w2 == w1 && h2 == h1
    ensures w2 * h == h2 * w
  {
    if h1 != 0.0 {
      calc {
        w2 * h * h1;
        == (w2 * h1) * h;
        == (h2 * w1) * h;
        == h2 * (w1 * h);
        == h2 * (h1 * w);
        == (h2 * w) * h1;
      }
    }
  }

  /** Scaling by a factor of at most one does not grow a value. */
  lemma ScaleDown(a: real, num: real, den: real)
    requires a >= 0.0 && 0.0 <= num <= den && den > 0.0
    ensures 0.0 <= a * num / den <= a
  {
    var q := a * num / den;
    assert q * den == a * num;
    assert a * num <= a * den;
  }

  /** With the default bounds the result is at most 800 by 800. */
  lemma DefaultBounds(width: real, height: real)
    requires width >= 0.0 && height >= 0.0
    ensures var r := FitWithin(width, height, DefaultMaxWidth, DefaultMaxHeight);
      r.0 <= 800.0 && r.1 <= 800.0
  {
  }
}

=== FILE: image_upload.dfy ===
/** The image-upload widget of the sell form: the list of uploaded previews
    with its "default image" flag, the checks a dropped file must pass, and
    the retry logic around the upload request. */
module ImageUpload {
  import opened Common

  datatype Preview = Preview(url: string, key: string, isDefault: bool)

  /** The widget's `maxFiles` when the caller passes none. */
  const DefaultMaxFiles: int := 5
  /** 20 MiB, in bytes. */
  const MaxFileSize: nat := 20 * 1024 * 1024
  const MaxRetries: nat := 3

  /** At most one preview carries the default flag. */
  ghost predicate AtMostOneDefault(ps: seq<Preview>)
  {
    forall i, j :: 0 <= i < |ps| && 0 <= j < |ps| && ps[i].isDefault && ps[j].isDefault ==> i == j
  }

  // ---------------------------------------------------------------------------
  // The preview list

  /** A successful upload: the new image goes last and is the default exactly
      when it is the first one. */
  function AddUploaded(ps: seq<Preview>, url: string, key: string): (r: seq<Preview>)
    ensures |r| == |ps| + 1 && r[..|ps|] == ps
    ensures r[|ps|].url == url && r[|ps|].key == key
    ensures r[|ps|].isDefault <==> |ps| == 0
    ensures AtMostOneDefault(ps) ==> AtMostOneDefault(r)
  {
    ps + [Preview(url, key, |ps| == 0)]
  }

  /** `setDefaultImage(index)`: every preview is kept, and the flag is set at
      `index` and cleared everywhere else. */
  function SetDefault(ps: seq<Preview>, index: int): (r: seq<Preview>)
    ensures |r| == |ps|
    ensures forall i :: 0 <= i < |ps| ==>
      r[i].url == ps[i].url && r[i].key == ps[i].key && (r[i].isDefault <==> i == index)
    ensures AtMostOneDefault(r)
  {
    seq(|ps|, i requires 0 <= i < |ps| => ps[i].(isDefault := i == index))
  }

  /** The number of previews flagged as default. */
  function DefaultCount(ps: seq<Preview>): nat
  {
    if |ps| == 0 then 0 else (if ps[0].isDefault then 1 else 0) + DefaultCount(ps[1..])
  }

  lemma {:induction false} DefaultCountZero(ps: seq<Preview>)
    ensures DefaultCount(ps) == 0 <==> forall i :: 0 <= i < |ps| ==> !ps[i].isDefault
    decreases |ps|
  {
    if |ps| > 0 {
      DefaultCountZero(ps[1..]);
      assert forall i :: 1 <= i < |ps| ==> ps[i] == ps[1..][i - 1];
    }
  }

  lemma {:induction false} DefaultCountOne(ps: seq<Preview>, k: nat)
    requires k < |ps| && ps[k].isDefault
    requires forall i :: 0 <= i < |ps| && i != k ==> !ps[i].isDefault
    ensures DefaultCount(ps) == 1
    decreases |ps|
  {
    if k == 0 {
      DefaultCountZero(ps[1..]);
    } else {
      DefaultCountOne(ps[1..], k - 1);
    }
  }

  /** After `setDefaultImage` exactly one preview is the default when the
      index is in range, and none is when it is not. */
  lemma SetDefaultCount(ps: seq<Preview>, index: int)
    ensures 0 <= index < |ps| ==> DefaultCount(SetDefault(ps, index)) == 1
    ensures !(0 <= index < |ps|) ==> DefaultCount(SetDefault(ps, index)) == 0
  {
    var r := SetDefault(ps, index);
    if 0 <= index < |ps| {
      DefaultCountOne(r, index);
    } else {
      DefaultCountZero(r);
    }
  }

  /** `removeImage(index)` once the storage delete request has been sent:
      `previews.filter((_, i) => i !== index)`. When the request itself throws,
      or `previews[index]` does not exist, the list is left as it is. */
  function Remove(ps: seq<Preview>, index: int, deleteRequestThrew: bool): (r: seq<Preview>)
    ensures 0 <= index < |ps| && !deleteRequestThrew ==> r == ps[..index] + ps[index + 1..]
    ensures !(0 <= index < |ps|) || deleteRequestThrew ==> r == ps
    ensures AtMostOneDefault(ps) ==> AtMostOneDefault(r)
    // the flag is never moved to another preview
    ensures forall p :: p in r ==> p in ps
  {
    if 0 <= index < |ps| && !deleteRequestThrew then
      var r := ps[..index] + ps[index + 1..];
      assert forall i :: 0 <= i < |r| ==> r[i] == (if i < index then ps[i] else ps[i + 1]);
      r
    else ps
  }

  /** Removing the default preview leaves none: the flag is not reassigned. */
  lemma RemovingDefaultLeavesNone(ps: seq<Preview>, index: int)
    requires AtMostOneDefault(ps) && 0 <= index < |ps| && ps[index].isDefault
    ensures forall p :: p in Remove(ps, index, false) ==> !p.isDefault
  {
    var r := Remove(ps, index, false);
    forall p | p in r ensures !p.isDefault {
      var j :| 0 <= j < |r| && r[j] == p;
      assert r[j] == (if j < index then ps[j] else ps[j + 1]);
    }
  }

  /** Uploads into an empty list, one after another. */
  function UploadAll(ps: seq<Preview>, files: seq<(string, string)>): seq<Preview>
    decreases |files|
  {
    if |files| == 0 then ps else UploadAll(AddUploaded(ps, files[0].0, files[0].1), files[1..])
  }

  /** Uploads alone make the first image the one default. */
  lemma {:induction false} UploadsMarkFirstOnly(ps: seq<Preview>, files: seq<(string, string)>)
    requires |ps| > 0 ==> ps[0].isDefault && forall i :: 1 <= i < |ps| ==> !ps[i].isDefault
    ensures var r := UploadAll(ps, files);
      |r| == |ps| + |files| &&
      (|r| > 0 ==> r[0].isDefault && forall i :: 1 <= i < |r| ==> !r[i].isDefault)
    decreases |files|
  {
    if |files| > 0 {
      UploadsMarkFirstOnly(AddUploaded(ps, files[0].0, files[0].1), files[1..]);
    }
  }

  // ---------------------------------------------------------------------------
  // Dropping a file

  datatype FileInfo = FileInfo(name: string, size: nat)

  datatype UploadState = UploadState(
    previews: seq<Preview>,
    fileToCrop: Option<FileInfo>,
    uploadError: Option<string>,
    retryCount: nat)

  datatype Toast = TooManyImages(maxFiles: int) | FileTooLarge

  /** `onDrop(acceptedFiles)`: the new state and the error toast, if any. */
  function OnDrop(st: UploadState, accepted: seq<FileInfo>, maxFiles: int): (r: (UploadState, Option<Toast>))
    // an empty drop does nothing
    ensures |accepted| == 0 ==> r == (st, None)
    // a refused drop changes nothing
    ensures r.1.Some? ==> r.0 == st
    ensures r.1 == Some(TooManyImages(maxFiles)) <==> |accepted| > 0 && |accepted| + |st.previews| > maxFiles
    ensures r.1 == Some(FileTooLarge) <==>
      0 < |accepted| && |accepted| + |st.previews| <= maxFiles && accepted[0].size > MaxFileSize
    // an admitted drop queues the first file for cropping and resets the error state
    ensures |accepted| > 0 && r.1.None? ==>
      r.0 == st.(fileToCrop := Some(accepted[0]), uploadError := None, retryCount := 0)
    // what admission guarantees: room for one more image, and a file of at most 20 MiB
    ensures r.1.None? && |accepted| > 0 ==>
      |st.previews| + 1 <= maxFiles && accepted[0].size <= MaxFileSize
  {
    if |accepted| == 0 then (st, None)
    else if |accepted| + |st.previews| > maxFiles then (st, Some(TooManyImages(maxFiles)))
    else if accepted[0].size > MaxFileSize then (st, Some(FileTooLarge))
    else (st.(fileToCrop := Some(accepted[0]), uploadError := None, retryCount := 0), None)
  }

  /** Admission keeps the preview list within `maxFiles`: a drop followed by
      a successful upload never takes the list past the limit. */
  lemma DropThenUploadWithinLimit(st: UploadState, accepted: seq<FileInfo>, maxFiles: int,
                                  url: string, key: string)
    requires |accepted| > 0 && OnDrop(st, accepted, maxFiles).1.None?
    ensures |AddUploaded(st.previews, url, key)| <= maxFiles
  {
  }

  /** With the default limit of five, a full list refuses every further drop:
      the count test is `>`, so the fifth image is still admitted. */
  lemma DefaultLimitIsFive(st: UploadState, accepted: seq<FileInfo>)
    requires |accepted| > 0
    ensures |st.previews| >= DefaultMaxFiles ==>
      OnDrop(st, accepted, DefaultMaxFiles) == (st, Some(TooManyImages(5)))
    ensures |st.previews| == DefaultMaxFiles - 1 && |accepted| == 1 && accepted[0].size <= MaxFileSize ==>
      OnDrop(st, accepted, DefaultMaxFiles).1.None?
  {
  }

  // ---------------------------------------------------------------------------
  // The upload request and its retries

  /** What one `fetch("/api/upload")` attempt yields: a network error (the
      promise rejects) or an HTTP response. `body` is the `{url, key}` pair
      the widget destructures from the JSON; `None` is a body without those
      fields, such as an error message. The model leaves open what the
      endpoint sends, so the loop is stated for every sequence of responses. */
  datatype Attempt = NetworkError | HttpResponse(ok: bool, body: Option<ImageRef>)

  datatype UploadResult = Uploaded(body: Option<ImageRef>) | UploadFailed

  /** The request loop AS WRITTEN: `response` is assigned before `ok` is
      tested, so a non-OK response on an attempt that is not the last ends
      the loop and its body is read as the upload's result. `attempts[i]` is
      what attempt `i` would meet. */
  function UploadAttemptsAsWritten(attempts: seq<Attempt>, attempt: nat): (r: UploadResult)
    requires attempt <= MaxRetries
    decreases MaxRetries - attempt
  {
    if attempt == MaxRetries || attempt >= |attempts| then UploadFailed
    else match attempts[attempt]
      case NetworkError => UploadAttemptsAsWritten(attempts, attempt + 1)
      case HttpResponse(ok, body) =>
        if ok then Uploaded(body)
        else if attempt + 1 == MaxRetries then UploadFailed
        else Uploaded(body)
  }

  /** An upload endpoint that answers with an error status on the first try
      is taken as a success, and the error body is handed on as the image. */
  lemma ErrorResponseTakenAsUpload()
    ensures UploadAttemptsAsWritten([HttpResponse(false, None)], 0) == Uploaded(None)
  {
  }

  /** The intended loop: up to three attempts, retrying after a network error
      and after a non-OK response alike. */
  function UploadAttempts(attempts: seq<Attempt>, attempt: nat): (r: UploadResult)
    requires attempt <= MaxRetries
    // success means an OK response within the attempt budget, the first
    // one, and its body
    ensures r.Uploaded? ==>
              exists i :: attempt <= i < MaxRetries && i < |attempts|
                          && attempts[i].HttpResponse? && attempts[i].ok && r.body == attempts[i].body
                          && forall j :: attempt <= j < i ==> !(attempts[j].HttpResponse? && attempts[j].ok)
    // failure means no OK response within the budget
    ensures r.UploadFailed? ==> forall i :: attempt <= i < MaxRetries && i < |attempts| ==>
      !(attempts[i].HttpResponse? && attempts[i].ok)
    decreases MaxRetries - attempt
  {
    if attempt == MaxRetries || attempt >= |attempts| then UploadFailed
    else if attempts[attempt].HttpResponse? && attempts[attempt].ok then Uploaded(attempts[attempt].body)
    else UploadAttempts(attempts, attempt + 1)
  }

  /** With the intended loop the same error response is reported as a failure. */
  lemma ErrorResponseRefused()
    ensures UploadAttempts([HttpResponse(false, None)], 0) == UploadFailed
  {
  }

  /** How many times the upload handler runs AS WRITTEN, when run `k` would
      end in `failures[k]` (true: the request loop failed). The handler tests
      the retry count captured when it was created, which an admitted drop
      has just reset to 0; the recursive call reuses that same handler, so
      the count it tests never grows. */
  function HandlerRunsAsWritten(captured: nat, failures: seq<bool>): (runs: nat)
    decreases |failures|
  {
    if |failures| == 0 then 0
    else if !failures[0] then 1
    else if captured < MaxRetries then 1 + HandlerRunsAsWritten(captured, failures[1..])
    else 1
  }

  /** However many consecutive failures there are, the handler runs once for
      each of them: the retries never stop. */
  lemma {:induction false} RetriesNeverStop(n: nat)
    ensures HandlerRunsAsWritten(0, seq(n, _ => true)) == n
  {
    if n > 0 {
      assert seq(n, _ => true)[1..] == seq(n - 1, _ => true);
      RetriesNeverStop(n - 1);
    }
  }

  /** The intended handler: the count it tests grows with every retry. */
  function HandlerRuns(retryCount: nat, failures: seq<bool>): (runs: nat)
    ensures retryCount <= MaxRetries ==> runs <= MaxRetries - retryCount + 1
    ensures |failures| > 0 ==> runs >= 1
    ensures runs <= |failures|
    // every run but the last failed, and a failure under the limit is retried
    ensures forall k :: 0 <= k < runs - 1 ==> failures[k]
    ensures 0 < runs < |failures| ==> !failures[runs - 1] || retryCount + runs - 1 >= MaxRetries
    decreases |failures|
  {
    if |failures| == 0 then 0
    else if !failures[0] then 1
    else if retryCount < MaxRetries then 1 + HandlerRuns(retryCount + 1, failures[1..])
    else 1
  }
}

=== FILE: listings_content.dfy ===
/** The `/listings` page body: filters read from the address bar, the
    search request they produce, and the navigation on submit. */
module ListingsContent {
  import opened Common
  import Entries
  import ListingsRoute

  /** The initial filter state: each filter's value from the page's search
      parameters (`searchParams.get(name) || ""`), in declaration order. */
  function InitialFilters(searchParams: seq<Entries.Entry>): (r: seq<Entries.Entry>)
    ensures Entries.Keys(r) == ListingsRoute.FilterKeys
    ensures Entries.UniqueKeys(r)
    ensures forall i :: 0 <= i < |r| ==>
      r[i].1 == OrEmpty(Entries.Get(searchParams, ListingsRoute.FilterKeys[i]))
  {
    var keys := ListingsRoute.FilterKeys;
    seq(|keys|, i requires 0 <= i < |keys| => (keys[i], OrEmpty(Entries.Get(searchParams, keys[i]))))
  }

  /** A filter present in the address bar is read back by name. */
  lemma InitialFilterReadsParam(searchParams: seq<Entries.Entry>, name: string)
    requires name in ListingsRoute.FilterKeys
    ensures Entries.Get(InitialFilters(searchParams), name) == Some(OrEmpty(Entries.Get(searchParams, name)))
  {
    var r := InitialFilters(searchParams);
    var i :| 0 <= i < |ListingsRoute.FilterKeys| && ListingsRoute.FilterKeys[i] == name;
    Entries.GetFirst(r, i, name);
  }

  /** The `URLSearchParams` built with `set` from the filter state. */
  function QueryParams(filters: seq<Entries.Entry>): (ps: seq<Entries.Entry>)
    requires Entries.UniqueKeys(filters)
    ensures ps == Entries.NonEmpty(filters)
    ensures forall e :: e in ps <==> e in filters && e.1 != ""
    ensures Entries.UniqueKeys(ps)
  {
    Entries.SetTruthyIsNonEmpty([], filters);
    Entries.NonEmptyKeepsUnique(filters);
    Entries.NonEmptyMembers(filters);
    Entries.SetTruthy([], filters)
  }

  /** The request the page sends whenever the filters change. */
  function FetchUrl(filters: seq<Entries.Entry>): (url: string)
    requires Entries.UniqueKeys(filters)
    ensures url == "/api/listings?" + Entries.ToQueryString(Entries.NonEmpty(filters))
  {
    "/api/listings?" + Entries.ToQueryString(QueryParams(filters))
  }

  /** `handleFilterSubmit`: the address the router is sent to. */
  function SubmitTarget(filters: seq<Entries.Entry>): (target: string)
    requires Entries.UniqueKeys(filters)
    ensures target == "/listings?" + FetchUrl(filters)[|"/api/listings?"|..]
  {
    var q := Entries.ToQueryString(QueryParams(filters));
    assert FetchUrl(filters)[|"/api/listings?"|..] == q;
    "/listings?" + q
  }
}

=== FILE: listings_route.dfy ===
/** `POST /api/listings` (create a listing with one image) and
    `GET /api/listings` (search the active listings). */
module ListingsRoute {
  import opened Common
  import Entries
  import Ordering

  /** The six search parameters the handler reads, in the order it reads them. */
  const FilterKeys: seq<string> := ["category", "make", "model", "minPrice", "maxPrice", "condition"]

  // ---------------------------------------------------------------------------
  // POST

  /** The multipart form fields; `None` is a field the form does not carry
      (`formData.get` returns null). */
  datatype CreateForm = CreateForm(
    title: Option<string>,
    description: Option<string>,
    price: Option<string>,
    category: Option<string>,
    make: Option<string>,
    model: Option<string>,
    year: Option<string>,
    condition: Option<string>,
    location: Option<string>,
    endDate: Option<string>,
    imageKey: Option<string>)

  /** The data handed to `prisma.listing.create`. `endDate` is the raw string
      given to the `Date` constructor; `year` is what `parseInt` produced. */
  datatype NewListing = NewListing(
    title: string,
    description: string,
    price: real,
    category: string,
    make: Option<string>,
    model: Option<string>,
    year: Option<Number>,
    condition: Option<string>,
    location: Option<string>,
    sellerId: string,
    endDate: Option<string>,
    status: string,
    images: seq<ImageRef>)

  /** `parseFloat(formData.get("price") as string)`; a missing field parses
      as `parseFloat(null)`, which is NaN. */
  function FormPrice(form: CreateForm, parseFloat: string -> Number): Number
  {
    if form.price.Some? then parseFloat(form.price.value) else NaN
  }

  /** The required-field test: every one of title, description, price,
      category and imageKey must be truthy. */
  predicate HasRequiredFields(form: CreateForm, parseFloat: string -> Number)
  {
    Truthy(form.title) && Truthy(form.description) && NumTruthy(FormPrice(form, parseFloat))
    && Truthy(form.category) && Truthy(form.imageKey)
  }

  /** The POST handler, up to the database insert. Parsing is a parameter;
      `bucket` and `region` are the deployment's storage settings. */
  function CreateListing(session: Option<SessionUser>, form: CreateForm,
                         parseFloat: string -> Number, parseInt: string -> Number,
                         bucket: string, region: string): (r: Response<NewListing>)
    // no session: 401 whatever the form holds
    ensures session.None? ==> r == Error(401, "You must be logged in to create a listing")
    // with a session: 400 exactly when a required field is falsy
    ensures session.Some? ==>
      (r.Error? <==> !HasRequiredFields(form, parseFloat)) && (r.Error? ==> r.status == 400)
    ensures session.Some? && r.Error? ==> r == Error(400, "Missing required fields")
    ensures r.Ok? ==> r.status == 201 && session.Some? && form.imageKey.Some?
    ensures r.Ok? ==> r.body.status == "active"
    ensures r.Ok? && session.Some? ==> r.body.sellerId == session.value.id
    ensures r.Ok? ==> r.body.price != 0.0 && FormPrice(form, parseFloat) == Num(r.body.price)
    ensures r.Ok? ==> Some(r.body.title) == form.title && Some(r.body.description) == form.description
                      && Some(r.body.category) == form.category
    // make and model: a falsy value becomes null; year: null when the field is falsy
    ensures r.Ok? ==> (r.body.make.Some? <==> Truthy(form.make)) && (r.body.make.Some? ==> r.body.make == form.make)
    ensures r.Ok? ==> (r.body.model.Some? <==> Truthy(form.model)) && (r.body.model.Some? ==> r.body.model == form.model)
    ensures r.Ok? ==> (r.body.year.Some? <==> Truthy(form.year))
    ensures r.Ok? && Truthy(form.year) ==> r.body.year == Some(parseInt(form.year.value))
    ensures r.Ok? ==> r.body.condition == form.condition && r.body.location == form.location
                      && r.body.endDate == form.endDate
    // exactly one image, stored under the uploaded key
    ensures r.Ok? && form.imageKey.Some? ==>
      |r.body.images| == 1 && r.body.images[0].key == form.imageKey.value
      && KeyOfUrl(bucket, region, r.body.images[0].url) == Some(form.imageKey.value)
  {
    if session.None? then
      Error(401, "You must be logged in to create a listing")
    else
      var price := FormPrice(form, parseFloat);
      var year := if Truthy(form.year) then Some(parseInt(form.year.value)) else None;
      if !HasRequiredFields(form, parseFloat) then
        Error(400, "Missing required fields")
      else
        var key := form.imageKey.value;
        UrlKeyRoundTrip(bucket, region, key);
        Ok(201, NewListing(
          form.title.value, form.description.value, price.value, form.category.value,
          OrNull(form.make), OrNull(form.model), year,
          form.condition, form.location, session.value.id, form.endDate,
          "active", [ImageRef(S3Url(bucket, region, key), key)]))
  }

  /** The fields the handler does not test never decide between 400 and 201. */
  lemma UncheckedFieldsIrrelevant(session: Option<SessionUser>, form: CreateForm,
                                  condition: Option<string>, location: Option<string>,
                                  endDate: Option<string>, make: Option<string>,
                                  model: Option<string>, year: Option<string>,
                                  parseFloat: string -> Number, parseInt: string -> Number,
                                  bucket: string, region: string)
    ensures
      var other := form.(condition := condition, location := location, endDate := endDate,
                         make := make, model := model, year := year);
      (CreateListing(session, form, parseFloat, parseInt, bucket, region).Ok?
       <==> CreateListing(session, other, parseFloat, parseInt, bucket, region).Ok?)
  {
  }

  /** A price of 0 counts as missing, so such a form is refused. */
  lemma ZeroPriceRejected(session: SessionUser, form: CreateForm,
                          parseFloat: string -> Number, parseInt: string -> Number,
                          bucket: string, region: string)
    requires form.price.Some? && parseFloat(form.price.value) == Num(0.0)
    ensures CreateListing(Some(session), form, parseFloat, parseInt, bucket, region)
            == Error(400, "Missing required fields")
  {
  }

  // ---------------------------------------------------------------------------
  // GET

  /** The inclusive price bounds of a `where` clause. */
  datatype PriceRange = PriceRange(gte: Option<real>, lte: Option<real>)

  /** The `where` object handed to `prisma.listing.findMany`. */
  datatype Where = Where(
    status: string,
    category: Option<string>,
    make: Option<string>,
    model: Option<string>,
    condition: Option<string>,
    price: Option<PriceRange>)

  /** A search parameter that is present and non-empty, parsed as a price. */
  function Bound(v: Option<string>, parseFloat: string -> real): (b: Option<real>)
    ensures b.Some? <==> Truthy(v)
  {
    if Truthy(v) then Some(parseFloat(v.value)) else None
  }

  /** Translates the search parameters into the `where` object. */
  function BuildWhere(params: seq<Entries.Entry>, parseFloat: string -> real): (w: Where)
    ensures w.status == "active"
    // a text filter is present exactly when its parameter is non-empty, and then equals it
    ensures (w.category.Some? <==> Truthy(Entries.Get(params, "category")))
            && (w.category.Some? ==> w.category == Entries.Get(params, "category"))
    ensures (w.make.Some? <==> Truthy(Entries.Get(params, "make")))
            && (w.make.Some? ==> w.make == Entries.Get(params, "make"))
    ensures (w.model.Some? <==> Truthy(Entries.Get(params, "model")))
            && (w.model.Some? ==> w.model == Entries.Get(params, "model"))
    ensures (w.condition.Some? <==> Truthy(Entries.Get(params, "condition")))
            && (w.condition.Some? ==> w.condition == Entries.Get(params, "condition"))
    // the price clause carries each bound parsed from its own parameter
    ensures Truthy(Entries.Get(params, "minPrice")) ==>
      w.price.Some? && w.price.value.gte == Some(parseFloat(Entries.Get(params, "minPrice").value))
    ensures Truthy(Entries.Get(params, "maxPrice")) ==>
      w.price.Some? && w.price.value.lte == Some(parseFloat(Entries.Get(params, "maxPrice").value))
  {
    var category := Entries.Get(params, "category");
    var make := Entries.Get(params, "make");
    var model := Entries.Get(params, "model");
    var minPrice := Entries.Get(params, "minPrice");
    var maxPrice := Entries.Get(params, "maxPrice");
    var condition := Entries.Get(params, "condition");
    Where("active", OrNull(category), OrNull(make), OrNull(model), OrNull(condition),
      if Truthy(minPrice) || Truthy(maxPrice)
      then Some(PriceRange(Bound(minPrice, parseFloat), Bound(maxPrice, parseFloat)))
      else None)
  }

  /** How the database reads a `where` object: every present field must hold. */
  predicate Matches(w: Where, l: ListingFields)
  {
    && l.status == w.status
    && (w.category.Some? ==> l.category == w.category.value)
    && (w.make.Some? ==> l.make == w.make)
    && (w.model.Some? ==> l.model == w.model)
    && (w.condition.Some? ==> l.condition == w.condition.value)
    && (w.price.Some? ==>
          && (w.price.value.gte.Some? ==> l.price >= w.price.value.gte.value)
          && (w.price.value.lte.Some? ==> l.price <= w.price.value.lte.value))
  }

  /** The search, stated directly on the parameters: always active listings;
      each text filter, when present and non-empty, by equality; each price
      bound, when present and non-empty, inclusively. */
  ghost predicate Selected(params: seq<Entries.Entry>, parseFloat: string -> real, l: ListingFields)
  {
    var get := k => Entries.Get(params, k);
    && l.status == "active"
    && (Truthy(get("category")) ==> l.category == get("category").value)
    && (Truthy(get("make")) ==> l.make == get("make"))
    && (Truthy(get("model")) ==> l.model == get("model"))
    && (Truthy(get("condition")) ==> l.condition == get("condition").value)
    && (Truthy(get("minPrice")) ==> l.price >= parseFloat(get("minPrice").value))
    && (Truthy(get("maxPrice")) ==> l.price <= parseFloat(get("maxPrice").value))
  }

  /** The `where` object selects exactly the listings the direct statement does. */
  lemma BuildWhereSelects(params: seq<Entries.Entry>, parseFloat: string -> real, l: ListingFields)
    ensures Matches(BuildWhere(params, parseFloat), l) <==> Selected(params, parseFloat, l)
  {
  }

  /** Without either price parameter the clause has no price constraint, and
      each bound is present exactly when its parameter is. */
  lemma PriceBoundsIndependent(params: seq<Entries.Entry>, parseFloat: string -> real)
    ensures var w := BuildWhere(params, parseFloat);
      && (w.price.None? <==> !Truthy(Entries.Get(params, "minPrice")) && !Truthy(Entries.Get(params, "maxPrice")))
      && (w.price.Some? ==>
            (w.price.value.gte.Some? <==> Truthy(Entries.Get(params, "minPrice")))
            && (w.price.value.lte.Some? <==> Truthy(Entries.Get(params, "maxPrice"))))
  {
  }

  /** The GET handler: the matching listings, newest first. */
  function SearchListings(params: seq<Entries.Entry>, parseFloat: string -> real,
                          rows: seq<ListingFields>): (r: seq<ListingFields>)
    ensures forall l :: l in r <==> l in rows && Selected(params, parseFloat, l)
    ensures forall l :: l in r ==> l.status == "active"
    ensures Ordering.NewestFirst(r, (l: ListingFields) => l.createdAt)
    // each selected row appears as often as it is stored
    ensures multiset(r) == multiset(Ordering.Where(rows, l => Matches(BuildWhere(params, parseFloat), l)))
  {
    var w := BuildWhere(params, parseFloat);
    var r := Ordering.FindMany(rows, l => Matches(w, l), (l: ListingFields) => l.createdAt);
    forall l | true ensures Matches(w, l) <==> Selected(params, parseFloat, l) {
      BuildWhereSelects(params, parseFloat, l);
    }
    r
  }
}

=== FILE: ordering.dfy ===
/** The two things every `findMany` in the handlers asks of the database: keep
    the rows a `where` clause accepts, and return them newest first
    (`orderBy: { createdAt: "desc" }`). The database does not promise an
    order among rows with the same `createdAt`; this model picks one, keeping
    such rows in input order, and its properties do not depend on that choice. */
module Ordering {

  /** Rows are ordered by creation time, newest first. */
  ghost predicate NewestFirst<T>(xs: seq<T>, createdAt: T -> int)
  {
    forall i, j :: 0 <= i < j < |xs| ==> createdAt(xs[i]) >= createdAt(xs[j])
  }

  /** The rows of `xs` that satisfy `p`, in their original order. */
  function Where<T(!new)>(xs: seq<T>, p: T -> bool): (r: seq<T>)
    ensures |r| <= |xs|
    ensures forall y :: y in r <==> y in xs && p(y)
    ensures multiset(r) <= multiset(xs)
  {
    if |xs| == 0 then []
    else
      assert xs == [xs[0]] + xs[1..];
      if p(xs[0]) then [xs[0]] + Where(xs[1..], p)
      else Where(xs[1..], p)
  }

  /** A row not older than every row of a newest-first sequence may lead it. */
  lemma ConsNewestFirst<T>(h: T, rest: seq<T>, createdAt: T -> int)
    requires NewestFirst(rest, createdAt)
    requires forall k :: 0 <= k < |rest| ==> createdAt(h) >= createdAt(rest[k])
    ensures NewestFirst([h] + rest, createdAt)
  {
    var r := [h] + rest;
    forall i, j | 0 <= i < j < |r|
      ensures createdAt(r[i]) >= createdAt(r[j])
    {
      if i > 0 {
        assert r[i] == rest[i - 1] && r[j] == rest[j - 1];
      } else {
        assert r[j] == rest[j - 1];
      }
    }
  }

  /** Places `x` before the first row that is not newer than it. */
  function Insert<T>(x: T, xs: seq<T>, createdAt: T -> int): (r: seq<T>)
    requires NewestFirst(xs, createdAt)
    ensures NewestFirst(r, createdAt)
    ensures multiset(r) == multiset(xs) + multiset{x}
    ensures |r| == |xs| + 1
  {
    if |xs| == 0 then [x]
    else if createdAt(x) >= createdAt(xs[0]) then
      ConsNewestFirst(x, xs, createdAt);
      [x] + xs
    else
      var tail := xs[1..];
      assert xs == [xs[0]] + tail;
      assert NewestFirst(tail, createdAt) by {
        forall i, j | 0 <= i < j < |tail|
          ensures createdAt(tail[i]) >= createdAt(tail[j])
        {
          assert tail[i] == xs[i + 1] && tail[j] == xs[j + 1];
        }
      }
      var rest := Insert(x, tail, createdAt);
      forall k | 0 <= k < |rest|
        ensures createdAt(xs[0]) >= createdAt(rest[k])
      {
        var y := rest[k];
        assert y in multiset(rest);
        if y != x {
          assert y in multiset(tail);
          var m :| 0 <= m < |tail| && tail[m] == y;
          assert xs[m + 1] == y;
        }
      }
      ConsNewestFirst(xs[0], rest, createdAt);
      [xs[0]] + rest
  }

  /** `orderBy: { createdAt: "desc" }`: a permutation of the input, newest first. */
  function SortNewestFirst<T>(xs: seq<T>, createdAt: T -> int): (r: seq<T>)
    ensures NewestFirst(r, createdAt)
    ensures multiset(r) == multiset(xs)
    ensures |r| == |xs|
  {
    if |xs| == 0 then []
    else
      assert xs == [xs[0]] + xs[1..];
      Insert(xs[0], SortNewestFirst(xs[1..], createdAt), createdAt)
  }

  /** `findMany({ where: p, orderBy: { createdAt: "desc" } })`. */
  function FindMany<T(!new)>(xs: seq<T>, p: T -> bool, createdAt: T -> int): (r: seq<T>)
    ensures NewestFirst(r, createdAt)
    ensures forall y :: y in r <==> y in xs && p(y)
    ensures multiset(r) == multiset(Where(xs, p))
  {
    var w := Where(xs, p);
    var r := SortNewestFirst(w, createdAt);
    assert forall y :: y in r <==> y in multiset(r);
    assert forall y :: y in w <==> y in multiset(w);
    r
  }
}

=== FILE: settings_route.dfy ===
/** `PUT /api/user/settings`: change the signed-in user's name, email and,
    optionally, password. The checks run in a fixed order and the first one
    that fails decides the response. */
module SettingsRoute {
  import opened Common

  /** A user row. `password` is the stored bcrypt hash; accounts created
      through an OAuth provider have none. */
  datatype UserRow = UserRow(id: string, name: string, email: string, password: Option<string>)

  /** The JSON body. A field the client leaves out reads as "". */
  datatype SettingsRequest = SettingsRequest(name: string, email: string, currentPassword: string, newPassword: string)

  /** The only fields the response exposes. */
  datatype PublicUser = PublicUser(id: string, name: string, email: string)

  /** `findUnique({ where: { id } })`. */
  function FindById(users: seq<UserRow>, id: string): Option<UserRow>
  {
    FindFirst(users, (u: UserRow) => u.id == id)
  }

  predicate EmailInUse(users: seq<UserRow>, email: string)
  {
    exists u :: u in users && u.email == email
  }

  /** The requested email differs from the session's and another account
      already has it. */
  predicate EmailConflict(session: SessionUser, req: SettingsRequest, users: seq<UserRow>)
  {
    Some(req.email) != session.email && EmailInUse(users, req.email)
  }

  /** A password change is requested but cannot be authorised. */
  predicate PasswordRefused(req: SettingsRequest, user: UserRow, compare: (string, string) -> bool)
  {
    req.newPassword != "" &&
    (req.currentPassword == "" || !Truthy(user.password) || !compare(req.currentPassword, user.password.value))
  }

  /** The row after a successful update. */
  function Updated(u: UserRow, req: SettingsRequest, hash: string -> string): UserRow
  {
    u.(name := req.name, email := req.email,
       password := if req.newPassword != "" then Some(hash(req.newPassword)) else u.password)
  }

  /** The handler. `compare` and `hash` stand for bcrypt; the result pairs the
      response with the user table afterwards. */
  function UpdateSettings(session: Option<SessionUser>, req: SettingsRequest, users: seq<UserRow>,
                          compare: (string, string) -> bool, hash: string -> string)
    : (r: (Response<PublicUser>, seq<UserRow>))
    // 401 before anything else
    ensures r.0.Error? && r.0.status == 401 <==> session.None?
    ensures session.None? ==> r.0 == Error(401, "Unauthorized")
    // the email check comes first and is skipped when the email is unchanged
    ensures session.Some? && EmailConflict(session.value, req, users) ==>
      r.0 == Error(400, "Email is already taken")
    ensures session.Some? && Some(req.email) == session.value.email ==>
      r.0 != Error(400, "Email is already taken")
    // a missing user is reported only once the email check has passed
    ensures r.0.Error? && r.0.status == 404 <==>
      session.Some? && !EmailConflict(session.value, req, users) && FindById(users, session.value.id).None?
    ensures r.0.Error? && r.0.status == 404 ==> r.0 == Error(404, "User not found")
    // without a new password the password checks do not run
    ensures (session.Some? && req.newPassword == "" && !EmailConflict(session.value, req, users)
             && FindById(users, session.value.id).Some?) ==> r.0.Ok?
    // a password change is refused with 400, the three checks in this order
    ensures session.Some? && !EmailConflict(session.value, req, users)
            && FindById(users, session.value.id).Some? && req.newPassword != "" ==>
      var stored := FindById(users, session.value.id).value.password;
      && (req.currentPassword == "" ==> r.0 == Error(400, "Current password is required"))
      && (req.currentPassword != "" && !Truthy(stored) ==>
            r.0 == Error(400, "Cannot change password for OAuth accounts"))
      && (req.currentPassword != "" && Truthy(stored) && !compare(req.currentPassword, stored.value) ==>
            r.0 == Error(400, "Current password is incorrect"))
    // a refusal changes nothing
    ensures r.0.Error? ==> r.1 == users
    // success: the user's row is rewritten, every other row is kept
    ensures r.0.Ok? ==> (
      && session.Some? && r.0.status == 200
      && r.0.body == PublicUser(session.value.id, req.name, req.email)
      && |r.1| == |users|
      && forall i :: 0 <= i < |users| ==>
           r.1[i] == if users[i].id == session.value.id then Updated(users[i], req, hash) else users[i])
  {
    if session.None? then
      (Error(401, "Unauthorized"), users)
    else if Some(req.email) != session.value.email && EmailInUse(users, req.email) then
      (Error(400, "Email is already taken"), users)
    else
      match FindById(users, session.value.id)
      case None => (Error(404, "User not found"), users)
      case Some(user) =>
        if req.newPassword != "" && req.currentPassword == "" then
          (Error(400, "Current password is required"), users)
        else if req.newPassword != "" && !Truthy(user.password) then
          (Error(400, "Cannot change password for OAuth accounts"), users)
        else if req.newPassword != "" && !compare(req.currentPassword, user.password.value) then
          (Error(400, "Current password is incorrect"), users)
        else
          var users' := seq(|users|, i requires 0 <= i < |users| =>
            if users[i].id == session.value.id then Updated(users[i], req, hash) else users[i]);
          (Ok(200, PublicUser(user.id, req.name, req.email)), users')
  }

  /** The outcome is success exactly when no check in the chain fails. */
  lemma SucceedsIffNoCheckFails(session: Option<SessionUser>, req: SettingsRequest, users: seq<UserRow>,
                                compare: (string, string) -> bool, hash: string -> string)
    ensures UpdateSettings(session, req, users, compare, hash).0.Ok? <==>
      && session.Some?
      && !EmailConflict(session.value, req, users)
      && FindById(users, session.value.id).Some?
      && !PasswordRefused(req, FindById(users, session.value.id).value, compare)
  {
  }

  /** After success the stored password is the hash of the new one exactly
      when a new one was given, and is otherwise untouched. */
  lemma PasswordChangesOnlyWhenRequested(session: SessionUser, req: SettingsRequest, users: seq<UserRow>,
                                         compare: (string, string) -> bool, hash: string -> string, i: nat)
    requires UpdateSettings(Some(session), req, users, compare, hash).0.Ok?
    requires i < |users| && users[i].id == session.id
    ensures var after := UpdateSettings(Some(session), req, users, compare, hash).1[i];
      && after.name == req.name && after.email == req.email
      && (req.newPassword != "" ==> after.password == Some(hash(req.newPassword)))
      && (req.newPassword == "" ==> after.password == users[i].password)
  {
  }
}

=== FILE: user_bids_route.dfy ===
/** `GET /api/user/bids`: the signed-in user's bids, newest first, each with
    its listing and that listing's images as public URLs. */
module UserBidsRoute {
  import opened Common
  import Ordering

  /** A bid row with `include: { listing: { include: { images: true } } }`. */
  datatype BidRow = BidRow(bid: BidFields, listing: ListingFields, images: seq<DbImage>)

  /** A transformed bid: the listing's images are reduced to `{url, key}`. */
  datatype BidView = BidView(bid: BidFields, listing: ListingFields, images: seq<ImageRef>)

  function ToView(bucket: string, region: string, row: BidRow): (v: BidView)
    ensures v.bid == row.bid && v.listing == row.listing
    ensures |v.images| == |row.images|
    ensures forall i :: 0 <= i < |row.images| ==>
      v.images[i].key == row.images[i].key
      && v.images[i].url == S3Url(bucket, region, row.images[i].key)
  {
    BidView(row.bid, row.listing, ToImageRefs(bucket, region, row.images))
  }

  /** The transform applied to each row of a query result, in order. */
  function Views(bucket: string, region: string, rows: seq<BidRow>): (vs: seq<BidView>)
    requires Ordering.NewestFirst(rows, (r: BidRow) => r.bid.createdAt)
    ensures |vs| == |rows|
    ensures forall i :: 0 <= i < |rows| ==> vs[i] == ToView(bucket, region, rows[i])
    ensures Ordering.NewestFirst(vs, (v: BidView) => v.bid.createdAt)
    ensures forall v :: v in vs ==> exists row :: row in rows && v == ToView(bucket, region, row)
    ensures forall row :: row in rows ==> ToView(bucket, region, row) in vs
  {
    var vs := seq(|rows|, i requires 0 <= i < |rows| => ToView(bucket, region, rows[i]));
    assert forall i :: 0 <= i < |rows| ==> vs[i] in vs && rows[i] in rows;
    vs
  }

  /** The handler. */
  function UserBids(session: Option<SessionUser>, rows: seq<BidRow>, bucket: string, region: string)
    : (r: Response<seq<BidView>>)
    ensures session.None? <==> r == Error(401, "Unauthorized")
    ensures r.Ok? ==> session.Some? && r.status == 200
    // exactly the user's bids, one view per bid
    ensures r.Ok? ==> |r.body| == |Ordering.Where(rows, (b: BidRow) => b.bid.userId == session.value.id)|
    ensures r.Ok? ==> forall v :: v in r.body ==>
      v.bid.userId == session.value.id && exists row :: row in rows && v == ToView(bucket, region, row)
    ensures r.Ok? ==> forall row :: row in rows && row.bid.userId == session.value.id ==>
      ToView(bucket, region, row) in r.body
    // newest first
    ensures r.Ok? ==> Ordering.NewestFirst(r.body, (v: BidView) => v.bid.createdAt)
  {
    if session.None? then Error(401, "Unauthorized")
    else
      var uid := session.value.id;
      var mine := Ordering.FindMany(rows, (b: BidRow) => b.bid.userId == uid, (b: BidRow) => b.bid.createdAt);
      var views := Views(bucket, region, mine);
      assert |mine| == |Ordering.Where(rows, (b: BidRow) => b.bid.userId == uid)| by {
        var w := Ordering.Where(rows, (b: BidRow) => b.bid.userId == uid);
        assert |multiset(mine)| == |multiset(w)|;
      }
      Ok(200, views)
  }
}

=== FILE: user_listings_route.dfy ===
/** `GET /api/user/listings`: the signed-in user's own listings, newest
    first, each with its images as public URLs and its bid count. */
module UserListingsRoute {
  import opened Common
  import Ordering

  /** A listing row with `include: { images: true, _count: { select: { bids: true } } }`. */
  datatype ListingRow = ListingRow(listing: ListingFields, images: seq<DbImage>, bidCount: nat)

  /** A transformed listing: images reduced to `{url, key}`, all else kept. */
  datatype ListingView = ListingView(listing: ListingFields, images: seq<ImageRef>, bidCount: nat)

  function ToView(bucket: string, region: string, row: ListingRow): (v: ListingView)
    ensures v.listing == row.listing && v.bidCount == row.bidCount
    ensures |v.images| == |row.images|
    ensures forall i :: 0 <= i < |row.images| ==>
      v.images[i].key == row.images[i].key
      && v.images[i].url == S3Url(bucket, region, row.images[i].key)
  {
    ListingView(row.listing, ToImageRefs(bucket, region, row.images), row.bidCount)
  }

  /** The transform applied to each row of a query result, in order. */
  function Views(bucket: string, region: string, rows: seq<ListingRow>): (vs: seq<ListingView>)
    requires Ordering.NewestFirst(rows, (r: ListingRow) => r.listing.createdAt)
    ensures |vs| == |rows|
    ensures forall i :: 0 <= i < |rows| ==> vs[i] == ToView(bucket, region, rows[i])
    ensures Ordering.NewestFirst(vs, (v: ListingView) => v.listing.createdAt)
    ensures forall v :: v in vs ==> exists row :: row in rows && v == ToView(bucket, region, row)
    ensures forall row :: row in rows ==> ToView(bucket, region, row) in vs
  {
    var vs := seq(|rows|, i requires 0 <= i < |rows| => ToView(bucket, region, rows[i]));
    assert forall i :: 0 <= i < |rows| ==> vs[i] in vs && rows[i] in rows;
    vs
  }

  /** The handler. */
  function UserListings(session: Option<SessionUser>, rows: seq<ListingRow>, bucket: string, region: string)
    : (r: Response<seq<ListingView>>)
    ensures session.None? <==> r == Error(401, "Unauthorized")
    ensures r.Ok? ==> session.Some? && r.status == 200
    // exactly the user's listings, one view per listing
    ensures r.Ok? ==> |r.body| == |Ordering.Where(rows, (l: ListingRow) => l.listing.sellerId == session.value.id)|
    ensures r.Ok? ==> forall v :: v in r.body ==>
      v.listing.sellerId == session.value.id && exists row :: row in rows && v == ToView(bucket, region, row)
    ensures r.Ok? ==> forall row :: row in rows && row.listing.sellerId == session.value.id ==>
      ToView(bucket, region, row) in r.body
    // newest first
    ensures r.Ok? ==> Ordering.NewestFirst(r.body, (v: ListingView) => v.listing.createdAt)
  {
    if session.None? then Error(401, "Unauthorized")
    else
      var uid := session.value.id;
      var mine := Ordering.FindMany(rows, (l: ListingRow) => l.listing.sellerId == uid,
                                    (l: ListingRow) => l.listing.createdAt);
      var views := Views(bucket, region, mine);
      assert |mine| == |Ordering.Where(rows, (l: ListingRow) => l.listing.sellerId == uid)| by {
        var w := Ordering.Where(rows, (l: ListingRow) => l.listing.sellerId == uid);
        assert |multiset(mine)| == |multiset(w)|;
      }
      Ok(200, views)
  }
}
